=== FILE: README.md ===
# Polygon image reconstruction — a Dafny model

The program evolves a set of semi-transparent triangles until, drawn on a black canvas, they look
like a reference image. It has three parts:

- `ImageTest` turns a flat genome of reals into polygon draw commands and scores the drawing
  against the reference, using MSE or `1 - SSIM`.
- `eaSimpleWithElitismAndCallback` is DEAP's simple generational loop with two changes. The
  hall-of-fame items are copied unchanged into every new population. A callback runs after every
  generation from 1 on, never after generation 0.
- The run script fixes the constants (100 triangles, a population of 200, 20 elites, 5000
  generations). It builds random genomes and uses the MSE score as a one-objective fitness to
  minimise. It saves a snapshot every 100 generations.

The model consists of these files:

| file | module | what it holds |
|---|---|---|
| `base.dfy` | `Base` | `Option`, `Result`, and small arithmetic facts |
| `chunks.dfy` | `Chunks` | the `list2Chunks` generator, as a list of blocks |
| `codec.dfy` | `Codec` | Python's truncating `int()`, and decoding of a block into one `draw.polygon` call |
| `pixels.dfy` | `Pixels` | pixel arrays, the RGB↔BGR swap, and the sum of squared channel differences |
| `image_test.dfy` | `ImageTest` | the `ImageTest` object: the canvas, `getMse`, `getDifference` |
| `elitism.dfy` | `Elitism` | the generational loop, the logbook, and the callback trace |
| `reconstruct.dfy` | `Reconstruct` | the run configuration, the genome generator, `getDiff`, and `saveImage` |

## How the model works

- **Rasterizer and SSIM.** PIL's polygon rasterizer and `skimage`'s SSIM are not modelled.
  - A genome decodes to a `Canvas` value: the size, the black background, and the `draw.polygon`
    calls in order.
  - Scoring takes the rasterizer (`Canvas -> Image`) and the SSIM function as parameters.
  - `Rasterizes` states the one thing the scoring needs from the rasterizer: it returns a
    well-formed `uint8` array of the canvas's size.
- **DEAP operators.** The loop receives `select`, `varAnd`, `evaluate` and `HallOfFame.update` as
  functions.
  - Randomness is represented by passing the generation number to `select` and `varAnd`.
  - What the loop needs from DEAP is written as predicates and used as premises, never as
    preconditions. `SelectsCount` says `select(pop, k)` returns `max(0, k)` individuals.
    `KeepsLength` says `varAnd` returns one clone per input. `DrawsFrom` says the hall of fame
    holds only old items or given individuals. `FixedHall` says the hall of fame has a capacity `m`
    and is full (exactly `m` items) whenever it is updated with at least `m` individuals. DEAP's
    `HallOfFame` can hold fewer when individuals are similar, which is why this is a premise.
- **The callback as a trace.** `Event` records every logbook line and every `callback(gen, best)`
  call. `Schedule` is the trace the code is meant to produce, used as a reference definition.
  `Run` proves that its trace equals `Schedule`. Two lemmas then read off which lines are logged
  and which generations are notified.
- **Exceptions.** They become the `error` field of the result, and the state at the raise is kept.
  - A missing hall of fame raises only after the initial evaluation has happened.
  - `halloffame.items[0]` on an empty hall of fame raises after that generation's record is logged.

## Model

| member | source | states |
|---|---|---|
| Chunks.List2Chunks | image_test.py:125-128 | concatenating the blocks gives the list back; each block is non-empty and at most `chunkSize` long; every block except the last is exactly `chunkSize` long |
| Chunks.ChunkLayout | image_test.py:125-128 | there are ceil(len / size) blocks, and block `k` is `data[k*size : (k+1)*size]`, clipped at the end |
| Chunks.FullChunks | image_test.py:125-128 | every block is full exactly when the length is a multiple of the size, and then there are `len / size` blocks |
| Chunks.FullBlockAt | image_test.py:125-128 | when all blocks are full, block `k` is exactly `data[k*size : k*size + size]` |
| Codec.Trunc | image_test.py:46-55 | `int()` of a float truncates toward zero: the result is within 1 of the argument, on the side nearer zero |
| Codec.ReadVertices | image_test.py:44-49 | the vertex loop reads `polygonSize` (x, y) pairs: vertex `i` is built from genes `2i` and `2i+1` scaled by width and height, and the index ends at `2 * polygonSize` |
| Codec.DecodePolygon | image_test.py:36-58 | a block yields a command exactly when it has at least `2V+4` genes, otherwise IndexError; the command has `V` vertices from genes `2i` and `2i+1`, and its RGBA fill comes from genes `2V .. 2V+3` scaled by 255 |
| Codec.DecodeChunks | image_test.py:40-58 | one command per block, in block order; it fails exactly when some block is short |
| Codec.Decode | image_test.py:36-58 | decoding succeeds exactly when every `list2Chunks` block is full; command `k` is the decoding of block `k` |
| Codec.DecodeSucceeds | image_test.py:36-58 | decoding succeeds exactly when the genome length is a multiple of `2V+4`, and then yields `len / (2V+4)` commands |
| Codec.DecodeAt | image_test.py:36-58 | command `k` is the decoding of genes `k(2V+4) .. (k+1)(2V+4)` |
| Codec.ScaleInRange | image_test.py:46-55 | a gene in [0, 1] scales to an integer in [0, extent] |
| Codec.PolygonInBounds | image_test.py:44-58 | a block of genes in [0, 1] gives vertices on the canvas and colour channels in [0, 255] |
| Codec.DecodeInBounds | image_test.py:36-58 | every command decoded from genes in [0, 1] lies on the canvas and has byte-sized channels |
| Pixels.ToBgr | image_test.py:108-110 | `cvtColor(RGB2BGR)` keeps the width, height and pixel count, and in every pixel trades the first and third channels and keeps the second |
| Pixels.ToBgrInvolution | image_test.py:108-110 | converting RGB→BGR twice gives the image back, and preserves well-formedness |
| Pixels.SwapPreservesSum | image_test.py:112-115 | swapping the channels of both arrays the same way leaves the squared-difference sum unchanged |
| Pixels.PixelErrorZero | image_test.py:114-115 | one pixel pair has zero squared error exactly when the pixels are equal |
| Pixels.SumSquaredZero | image_test.py:112-115 | the sum of squared differences is zero exactly when the two arrays are equal |
| Pixels.SumSquaredMonotone | image_test.py:112-115 | pixels that are channel by channel no further from the reference never give a larger sum |
| Pixels.SumOfSquaredDifferences | image_test.py:114-115 | a walk over rows and columns computes the whole-array sum of squared differences; the three channels of each pixel are summed inside `PixelError` |
| ImageTest.Tester.NumPixels | image_test.py:19-20 | `numPixels = width * height` is the number of pixels of a well-formed reference |
| ImageTest.PolygonDataToImage | image_test.py:25-61 | the canvas is black, has the reference's size, and carries exactly the decoded commands; it fails exactly when decoding fails |
| ImageTest.CanvasCommands | image_test.py:25-61 | a canvas is produced exactly when the genome length is a multiple of the block size; it has `len / (2V+4)` commands, and command `k` decodes block `k` |
| ImageTest.CanvasCommandAt | image_test.py:40-58 | command `k` of a canvas is the decoding of the `k`-th block of genes |
| ImageTest.GetMse | image_test.py:112-115 | the score is non-negative; it is zero exactly when the image equals the reference; it equals the RGB sum of squared differences divided by `numPixels` (`Tester.NumPixels`, set at image_test.py line 20), so the BGR conversion does not change it |
| ImageTest.MseMonotone | image_test.py:112-115 | an image channel by channel no further from the reference scores no higher |
| ImageTest.GetDifference | image_test.py:63-73 | it fails exactly when decoding fails; the method `"MSE"` gives the MSE of the rendered image; every other method gives `1 - ssim` of the BGR arrays |
| Elitism.InvalidOnes | elitism_callback.py:18 | the individuals selected for evaluation are individuals of the population without a valid fitness, and every individual of the population without a valid fitness is selected |
| Elitism.InvalidOnesCount | elitism_callback.py:18 | `len(invalid_ind)` equals the number of positions of the population holding an individual without a valid fitness |
| Elitism.InvalidCount | elitism_callback.py:18 | nothing needs evaluating exactly when all are valid; everything does exactly when none is |
| Elitism.EvaluateInvalid | elitism_callback.py:18-21 | each invalid individual gets `evaluate(genome)` as its fitness; valid individuals and all genomes are unchanged; afterwards all are valid |
| Elitism.EvaluateIdempotent | elitism_callback.py:18-21 | a second evaluation pass changes nothing and finds nothing to evaluate |
| Elitism.Generation | elitism_callback.py:41-64 | the varied offspring are `varAnd(select(population, len(population) - hof_size))`; the evaluated offspring are those varied ones with their invalid fitnesses evaluated; `nevals` is exactly the number of varied offspring without a valid fitness; the new population is the evaluated offspring followed by the previous hall-of-fame items; with size-keeping operators there are exactly `max(0, len(population) - hof_size)` offspring and the population size is kept; the hall of fame is updated with the new population |
| Elitism.GenerationKeepsValid | elitism_callback.py:41-64 | if the hall of fame only holds individuals it was shown, a generation keeps every fitness valid |
| Elitism.UpdateKeepsValid | elitism_callback.py:61 | a hall-of-fame update drawing from valid individuals stays valid |
| Elitism.ScheduleSnoc | elitism_callback.py:66-74 | a generation appends its logbook line, then its callback call, to the trace |
| Elitism.TraceAppend | elitism_callback.py:66-74 | reading logged lines and notified generations distributes over concatenation of traces |
| Elitism.GenerationTrace | elitism_callback.py:66-74 | one generation logs exactly its record, and notifies its own number only for `gen > 0` with a callback and a non-empty hall of fame |
| Elitism.Range | elitism_callback.py:38 | `range(lo, hi)` has `max(0, hi - lo)` elements, the `i`-th being `lo + i` |
| Elitism.NotifiablePrefix | elitism_callback.py:72-74 | the callback could read `halloffame.items[0]` on generations `1 .. n - 1` exactly when it could in the first `n` generations' halls of fame taken alone |
| Elitism.ScheduleLogs | elitism_callback.py:31-68 | the trace logs exactly the records, in order |
| Elitism.ScheduleNotifies | elitism_callback.py:38-74 | with a callback, it is called exactly for generations `1 .. ngen` in order, never for 0; without one, never |
| Elitism.ExtendTrace | elitism_callback.py:66-68 | appending a record keeps the numbering, the empty-stats and the `nevals` bound exactly when the new record satisfies them |
| Elitism.Compile | elitism_callback.py:67 | `stats.compile(population) if stats else {}`: no statistics columns without a statistics object; with one, exactly its registered fields (also used for generation 0, line 32) |
| Elitism.IterateStable | elitism_callback.py:38-68 | the logbook only grows: running more generations leaves every earlier line and hall of fame as it was |
| Elitism.IterateLine | elitism_callback.py:38-68 | line `g` of a run of at least `g` generations is the line generation `g` logged from the pool generation `g - 1` left |
| Elitism.GenerationAt | elitism_callback.py:41-52 | generation `g` of the reference loop evaluates exactly its varied offspring without a valid fitness; with size-keeping operators there are `max(0, len(population) - hof_size)` of them, for the population generation `g - 1` left |
| Elitism.ReplayLine | elitism_callback.py:38-68 | in the reference loop, line `g` reports `gen = g`, the `nevals` of generation `g` run on the pool generation `g - 1` left, and the statistics of the population it produced; the hall of fame after `g` is the one it updated |
| Elitism.ReplaySized | elitism_callback.py:41-64 | with size-keeping operators, every pool of the reference loop has the initial population's size and `hof_size` elites |
| Elitism.ReplayedLine | elitism_callback.py:38-68 | in a run that follows the reference loop, line `g >= 1` reports generation `g`, the number of its varied offspring without a valid fitness, and the statistics of its population |
| Elitism.ReplayedNevals | elitism_callback.py:41-68 | with size-keeping operators, line `g >= 1` reports exactly the number of invalid individuals among the `len(population) - hof_size` varied offspring of generation `g` |
| Elitism.LoggedColumns | elitism_callback.py:15-68 | when `stats.compile` returns its registered fields, every logbook line carries exactly the header's statistics columns |
| Elitism.ReplayStep | elitism_callback.py:38-68 | running the next generation on the pool the previous one left, and logging it, keeps a state equal to the reference loop's |
| Elitism.Start | elitism_callback.py:17-33 | generation 0 evaluates the invalid individuals, updates the hall of fame with the whole population, and logs `gen=0` with `nevals` = the number evaluated and the statistics of the evaluated population |
| Elitism.Advance | elitism_callback.py:38-74 | one loop pass runs a generation, logs `Record(gen, nevals, stats)`, extends the trace by the scheduled events, and keeps validity and, with size-keeping operators, the population size |
| Elitism.Continue | elitism_callback.py:38-74 | one loop pass from a state equal to the reference loop's gives the next such state, one line longer, with generation 0, the trace schedule, validity and size still kept |
| Elitism.Evolve | elitism_callback.py:38-74 | the loop runs `ngen` generations unless the callback finds an empty hall of fame, and then it stops at the first generation after 0 whose hall of fame is empty; each generation runs on the population and hall of fame the previous one left, so the lines after generation 0 and the final pool are exactly the reference loop's; it keeps the trace scheduled, generation 0 untouched, validity and population size |
| Elitism.Run | elitism_callback.py:5-76 | the header is `['gen', 'nevals'] + stats.fields`; a missing hall of fame raises ValueError after the initial evaluation; otherwise there are `ngen + 1` numbered lines, the trace matches the schedule, gen 0 reports the number of invalid inputs and the statistics of the evaluated population, `hof_size` is the size after the first update, and every later line and the final population are those of the reference loop started from the evaluated population; with a callback, IndexError is raised at the first generation after 0 whose hall of fame is empty, every earlier one having had a first item, so at least one generation after 0 has run and `ngen = 0` never raises; without stats the records carry none; validity and size are kept |
| Reconstruct.ConfigurationConsistent | reconstruct-with-polygons.py:16-46 | `NUM_OF_PARAMS` is 1000, a whole number of 10-gene triangle blocks; the hall of fame fits in the population, leaving 180 selected; `indpb * NUM_OF_PARAMS == 1` |
| Base.FractionBetween | reconstruct-with-polygons.py:60-61 | the arithmetic bound behind `random.uniform` (`Reconstruct.Uniform`) and behind scaling a unit gene (`Codec.ScaleInRange`): a fraction in [0, 1] of a signed distance lies between 0 and that distance |
| Reconstruct.Uniform | reconstruct-with-polygons.py:60-61 | `random.uniform(a, b)` with a draw in [0, 1] lies between `a` and `b`, whichever is larger |
| Reconstruct.RandomFloat | reconstruct-with-polygons.py:60-61 | `randomFloat` gives `NUM_OF_PARAMS` values, each between the bounds |
| Reconstruct.IndividualCreator | reconstruct-with-polygons.py:65-71 | a new individual has `NUM_OF_PARAMS` genes in [0, 1] and no fitness yet |
| Reconstruct.PopulationCreator | reconstruct-with-polygons.py:74-77 | `populationCreator(n)` gives `n` unevaluated individuals of `NUM_OF_PARAMS` genes in [0, 1] |
| Reconstruct.InitialEvaluations | reconstruct-with-polygons.py:124 | every individual of the initial population is evaluated in generation 0, so gen 0 reports `nevals == 200` |
| Reconstruct.ConfiguredGenomeDecodes | reconstruct-with-polygons.py:16-22 | a 1000-gene genome always decodes to exactly 100 triangles; with genes in [0, 1] every vertex is on the canvas and every channel is a byte |
| Reconstruct.GetDiff | reconstruct-with-polygons.py:81-82 | the fitness is a one-element tuple holding the non-negative MSE score of the rendered genome; it fails exactly when the genome is not a whole number of blocks |
| Reconstruct.Better | reconstruct-with-polygons.py:51 | with weight `-1.0`, a fitness is better exactly when its score is smaller |
| Reconstruct.SaveImage | reconstruct-with-polygons.py:106-118 | a snapshot of the given genome is taken exactly on generations divisible by 100 |
| Reconstruct.MultiplesStep | reconstruct-with-polygons.py:108 | one more generation adds a snapshot generation exactly when it is a multiple of 100 |
| Reconstruct.SnapshotSchedule | reconstruct-with-polygons.py:106-118 | over callback generations `1 .. n`, snapshots happen at exactly `100, 200, …, 100⌊n/100⌋`, in order |
| Reconstruct.StatsColumns | reconstruct-with-polygons.py:127-129 | the statistics object registers exactly the columns `min` and `avg` |
| Reconstruct.RunSnapshots | reconstruct-with-polygons.py:135-143 | a completed run with the snapshot callback saves at `100, 200, …`, never at generation 0; 5000 generations give 50 snapshots, the last at 5000 |
| Reconstruct.Evolution | reconstruct-with-polygons.py:122-143 | `main` runs the elitist loop on 200 fresh individuals with `cxpb = 0.9`, `mutpb = 0.5`: the header is `gen, nevals, min, avg`, no ValueError is raised, gen 0 evaluates all 200, every line carries `min` and `avg`, every generation runs on the pool the previous one left; with a hall of fame that fills to 20, 20 elites survive, all 5000 generations run, and snapshots are saved at `100, 200, …, 5000` |

## Left out

- Rasterization (PIL `ImageDraw.polygon` with RGBA alpha blending) is a parameter. Only its output shape is assumed.
- SSIM (`skimage.metrics.structural_similarity`) is a parameter.
- Floating point: genes, scores and fitness values are exact reals. Rounding in `numpy`'s float sum and in `gene * width` is not modelled.
- Randomness (`random.seed`, `random.uniform`, tournament draws, SBX crossover, polynomial mutation) is not modelled. Draws are parameters, and the generation number stands in for the random state.
- DEAP's internals are not modelled: `selTournament`, `varAnd`, `cxSimulatedBinaryBounded`, `mutPolynomialBounded`, `HallOfFame`'s sorted insertion, `toolbox.map`, and `Statistics.compile`'s numpy `min`/`mean`. What the loop relies on from them is stated as premises.
- Image files, the `cv2`/`numpy` array conversion (beyond the RGB↔BGR channel swap), reference images with an alpha channel, and `Image.open` are not modelled. `Tester.Valid` assumes an RGB `uint8` reference with at least one pixel.
- Plotting (`plotImages`, `ticksOff`, `matplotlib`, `seaborn`), printing (`verbose`, `logbook.stream`, the best solution), folder creation and the file-name strings of `saveImage` are I/O. `SaveImage` keeps only the generation and the genome.
- `main`'s plotting of `logbook.select("min", "avg")` and its printing of the best individual are not modelled.
- `CROWDING_FACTOR` is only passed to DEAP's crossover and mutation, and `RANDOM_SEED` only seeds `random`. Neither is modelled, since both operators and the randomness are parameters.
- Elitism.Run: the size-preservation and validity claims are conditional on the operator predicates (`SelectsCount`, `KeepsLength`, `FixedHall`, `DrawsFrom`). The loop itself cannot guarantee them.
- Elitism.Run: `select` receives `len(population) - hof_size` as an integer that may be negative, as in the source. `SelectsCount` makes a non-positive count select nothing, as `range(k)` does.
- ImageTest.GetMse: requires the image to have the reference's shape. In the source, a mismatch raises inside `numpy` unless numpy can broadcast the two shapes (a dimension of 1 against a larger one), in which case it gives a different sum. The rasterized canvas always has the reference's size, so neither happens there.
- Elitism.Run: `ngen` is a natural number. The source also accepts a negative `ngen`: `range(1, ngen + 1)` is then empty and only generation 0 is logged, which is what `ngen = 0` gives here.
- The fitness length check DEAP makes when `fitness.values` is assigned is not modelled. `GetDiff` states that its value has one element, matching the one weight.
- The code neither clamps genes nor checks the genome length. Any whole number of blocks decodes, and a short last block raises `IndexError` (`Codec.DecodePolygon`, `ImageTest.CanvasCommands`). Genes outside [0, 1] give off-canvas coordinates and channel values outside [0, 255], so the in-bounds results (`Codec.DecodeInBounds`, `Reconstruct.ConfiguredGenomeDecodes`) are stated for genes in [0, 1].
- `getMse` does not compare the shapes of the two arrays (see `ImageTest.GetMse` above).

=== FILE: base.dfy ===
/** Failure-carrying wrappers shared by the other modules. */
module Base {

  /** A value that may be absent (Python's `None`). */
  datatype Option<+T> = None | Some(value: T)

  /** The outcome of a computation that may raise. */
  datatype Result<+T, +E> = Success(value: T) | Failure(error: E)

  function Min(a: int, b: int): int
  {
    if a <= b then a else b
  }

  function Max(a: int, b: int): int
  {
    if a <= b then b else a
  }

  /** One more block of `s` elements: `(a + 1) * s == a * s + s`. */
  lemma MulSucc(a: int, s: int)
    ensures (a + 1) * s == a * s + s
  {
  }

  lemma MulAtLeast(a: int, s: int)
    requires 1 <= a && 0 < s
    ensures s <= a * s
  {
    var b := a - 1;
    assert a * s == b * s + s;
    assert 0 <= b * s;
  }

  /** A fraction `u` in [0, 1] of the signed distance `d` lies between 0 and `d`. */
  lemma FractionBetween(d: real, u: real)
    ensures 0.0 <= u <= 1.0 && 0.0 <= d ==> 0.0 <= d * u <= d
    ensures 0.0 <= u <= 1.0 && d < 0.0 ==> d <= d * u <= 0.0
  {
    if 0.0 <= u <= 1.0 {
      var rest := d * (1.0 - u);
      assert d * u + rest == d;
      if 0.0 <= d {
        assert 0.0 <= rest && 0.0 <= d * u;
      } else {
        assert rest <= 0.0 && d * u <= 0.0;
      }
    }
  }

  /** Division with remainder is unique: the quotient and remainder of `x` by `s` are the only pair
      `(q, m)` with `x == q * s + m` and `0 <= m < s`. */
  lemma DivModUnique(x: int, s: int, q: int, m: int)
    requires 0 < s && 0 <= m < s && x == q * s + m
    ensures x / s == q && x % s == m
  {
    var q', m' := x / s, x % s;
    assert x == q' * s + m';
    if q' > q {
      assert (q' - q) * s == q' * s - q * s;
      MulAtLeast(q' - q, s);
      assert false;
    } else if q' < q {
      assert (q - q') * s == q * s - q' * s;
      MulAtLeast(q - q', s);
      assert false;
    }
  }

  lemma MulLeft(a: int, b: int, s: int)
    requires a <= b && 0 <= s
    ensures a * s <= b * s
  {
    assert b * s - a * s == (b - a) * s;
    assert 0 <= (b - a) * s;
  }

  /** A non-negative total divided by a positive count. */
  lemma DivideByCount(total: real, count: real)
    requires 0.0 <= total && 0.0 < count
    ensures 0.0 <= total / count
    ensures (total / count) * count == total
    ensures total / count == 0.0 <==> total == 0.0
  {
  }

  /** Dividing by the same positive count keeps the order of two totals. */
  lemma DivideMonotone(a: real, b: real, count: real)
    requires a <= b && 0.0 < count
    ensures a / count <= b / count
  {
  }
}

=== FILE: chunks.dfy ===
/** Splitting a flat gene list into consecutive blocks of one polygon each (`list2Chunks`). */
module Chunks {
  import opened Base

  /** Concatenation of a list of blocks, in order. */
  function Flatten<T>(xss: seq<seq<T>>): seq<T>
  {
    if |xss| == 0 then [] else xss[0] + Flatten(xss[1..])
  }

  /** Every block has exactly `size` elements. */
  predicate AllFull<T>(xss: seq<seq<T>>, size: nat)
  {
    forall k :: 0 <= k < |xss| ==> |xss[k]| == size
  }

  /** The blocks `data[i:i + size]` for `i` running from `start` in steps of `size` while `i < |data|`.
      Python's slice stops at the end of the list, so only the last block can be short. */
  function ChunksFrom<T>(data: seq<T>, size: nat, start: nat): seq<seq<T>>
    requires 0 < size
    decreases |data| - start
  {
    if |data| <= start then []
    else [data[start .. Min(start + size, |data|)]] + ChunksFrom(data, size, start + size)
  }

  /** The generator `list2Chunks(data, size)`: `range(0, len(data), size)` raises on a step of 0,
      hence `size > 0`. */
  function List2Chunks<T>(data: seq<T>, size: nat): (r: seq<seq<T>>)
    requires 0 < size
    ensures Flatten(r) == data
    ensures forall k :: 0 <= k < |r| ==> 0 < |r[k]| <= size
    ensures forall k :: 0 <= k < |r| - 1 ==> |r[k]| == size
  {
    ChunksFromPartition(data, size, 0);
    ChunksFrom(data, size, 0)
  }

  /** The blocks from `start` reassemble `data[start..]`; each is non-empty and at most `size`
      long, and all but the last are exactly `size` long. */
  lemma {:induction false} ChunksFromPartition<T>(data: seq<T>, size: nat, start: nat)
    requires 0 < size && start <= |data|
    ensures var r := ChunksFrom(data, size, start);
      && Flatten(r) == data[start..]
      && (forall k :: 0 <= k < |r| ==> 0 < |r[k]| <= size)
      && (forall k :: 0 <= k < |r| - 1 ==> |r[k]| == size)
    decreases |data| - start
  {
    if start < |data| {
      var next := start + size;
      var head := data[start .. Min(next, |data|)];
      var r := ChunksFrom(data, size, start);
      if |data| <= next {
        assert ChunksFrom(data, size, next) == [];
        assert r == [head] + [];
        assert r[1..] == [];
        assert Flatten(r) == head + Flatten([]);
      } else {
        var rest := ChunksFrom(data, size, next);
        ChunksFromPartition(data, size, next);
        assert r == [head] + rest;
        assert r[1..] == rest;
        assert data[start..] == head + data[next..];
        forall k | 0 <= k < |r| ensures 0 < |r[k]| <= size && (k < |r| - 1 ==> |r[k]| == size) {
          if k > 0 { assert r[k] == rest[k - 1]; }
        }
      }
    }
  }

  /** There are ceil((|data| - start) / size) blocks: the fewest blocks of `size` elements that
      cover `data[start..]`. */
  lemma {:induction false} ChunksFromCount<T>(data: seq<T>, size: nat, start: nat)
    requires 0 < size && start <= |data|
    ensures |data| - start <= |ChunksFrom(data, size, start)| * size < |data| - start + size
    decreases |data| - start
  {
    if start < |data| {
      var next := start + size;
      var n := |ChunksFrom(data, size, start)|;
      if |data| <= next {
        assert ChunksFrom(data, size, next) == [];
        assert n == 1;
      } else {
        ChunksFromCount(data, size, next);
        assert n == |ChunksFrom(data, size, next)| + 1;
        MulSucc(n - 1, size);
      }
    }
  }

  /** Block `k` from `start` is `data[start + k * size : start + (k + 1) * size]`, clipped at the
      end of the list. */
  lemma {:induction false} ChunksFromAt<T>(data: seq<T>, size: nat, start: nat, k: nat)
    requires 0 < size && k < |ChunksFrom(data, size, start)|
    ensures start + k * size < |data|
    ensures ChunksFrom(data, size, start)[k]
         == data[start + k * size .. Min(start + (k + 1) * size, |data|)]
    decreases k
  {
    var next := start + size;
    if k > 0 {
      var r := ChunksFrom(data, size, start);
      assert r[k] == ChunksFrom(data, size, next)[k - 1];
      ChunksFromAt(data, size, next, k - 1);
      MulSucc(k - 1, size);
      MulSucc(k, size);
    }
  }

  /** The number of blocks is ceil(|data| / size), and block `k` starts at `k * size`. */
  lemma ChunkLayout<T>(data: seq<T>, size: nat)
    requires 0 < size
    ensures var r := List2Chunks(data, size);
      && |data| <= |r| * size < |data| + size
      && forall k :: 0 <= k < |r| ==>
           k * size < |data| && r[k] == data[k * size .. Min((k + 1) * size, |data|)]
  {
    var r := List2Chunks(data, size);
    ChunksFromCount(data, size, 0);
    forall k | 0 <= k < |r|
      ensures k * size < |data| && r[k] == data[k * size .. Min((k + 1) * size, |data|)]
    {
      ChunksFromAt(data, size, 0, k);
    }
  }

  /** Every block is full exactly when the length is a multiple of `size`; then there are
      `|data| / size` blocks. */
  lemma FullChunks<T>(data: seq<T>, size: nat)
    requires 0 < size
    ensures AllFull(List2Chunks(data, size), size) <==> |data| % size == 0
    ensures |data| % size == 0 ==> |List2Chunks(data, size)| == |data| / size
  {
    var r := List2Chunks(data, size);
    ChunkLayout(data, size);
    var n := |r|;
    if n == 0 {
      DivModUnique(|data|, size, 0, 0);
    } else {
      var last := |data| - (n - 1) * size;
      assert |r[n - 1]| == last by {
        MulSucc(n - 1, size);
        assert r[n - 1] == data[(n - 1) * size .. Min(n * size, |data|)];
      }
      MulSucc(n - 1, size);
      assert 0 < last <= size;
      if last == size {
        DivModUnique(|data|, size, n, 0);
      } else {
        DivModUnique(|data|, size, n - 1, last);
        assert !AllFull(r, size);
      }
    }
  }

  /** When every block is full, block `k` is exactly `data[k * size : (k + 1) * size]`. */
  lemma FullBlockAt<T>(data: seq<T>, size: nat, k: nat)
    requires 0 < size && AllFull(List2Chunks(data, size), size) && k < |List2Chunks(data, size)|
    ensures var lo := k * size;
      0 <= lo && lo + size <= |data| && List2Chunks(data, size)[k] == data[lo .. lo + size]
  {
    ChunksFromAt(data, size, 0, k);
    var lo, hi := k * size, (k + 1) * size;
    assert hi == lo + size by { MulSucc(k, size); }
    assert |List2Chunks(data, size)[k]| == size;
  }
}

=== FILE: codec.dfy ===
/** Reading a genome as polygon draw commands (the arithmetic of `polygonDataToImage`). */
module Codec {
  import opened Base
  import opened Chunks

  /** Python's `int()` on a float: truncation toward zero. */
  function Trunc(x: real): (r: int)
    ensures 0.0 <= x ==> r as real <= x < r as real + 1.0
    ensures x < 0.0 ==> r as real - 1.0 < x <= r as real
  {
    if 0.0 <= x then x.Floor else -((-x).Floor)
  }

  /** A gene scaled to a pixel coordinate: `int(gene * extent)`. */
  function Scale(gene: real, extent: nat): int
  {
    Trunc(gene * extent as real)
  }

  /** A gene scaled to a colour byte: `int(gene * 255)`. */
  function Channel(gene: real): int
  {
    Trunc(gene * 255.0)
  }

  datatype Point = Point(x: int, y: int)

  datatype Rgba = Rgba(red: int, green: int, blue: int, alpha: int)

  /** One call `draw.polygon(vertices, (red, green, blue, alpha))`. */
  datatype DrawCommand = DrawPolygon(vertices: seq<Point>, fill: Rgba)

  /** Reading past the end of a short last block raises Python's `IndexError`. */
  datatype DecodeError = IndexOutOfRange

  /** Genes per polygon: an (x, y) pair per vertex, then red, green, blue and alpha. */
  function ChunkSize(polygonSize: nat): nat
  {
    polygonSize * 2 + 4
  }

  /** The vertex loop's state: the vertices read so far and the running gene index. */
  datatype Walk = Walk(vertices: seq<Point>, index: nat)

  /** `count` turns of the vertex loop starting at gene `index`: each reads an (x, y) pair and
      advances the index by 2. */
  function ReadVertices(poly: seq<real>, index: nat, count: nat, width: nat, height: nat): (w: Walk)
    requires index + 2 * count <= |poly|
    ensures |w.vertices| == count
    ensures w.index == index + 2 * count
    ensures forall i :: 0 <= i < count ==>
      w.vertices[i] == Point(Scale(poly[index + 2 * i], width), Scale(poly[index + 2 * i + 1], height))
    decreases count
  {
    if count == 0 then Walk([], index)
    else
      var first := Point(Scale(poly[index], width), Scale(poly[index + 1], height));
      var rest := ReadVertices(poly, index + 2, count - 1, width, height);
      Walk([first] + rest.vertices, rest.index)
  }

  /** The draw command for one block. The colour is read where the vertex loop stopped. */
  function DecodePolygon(poly: seq<real>, polygonSize: nat, width: nat, height: nat)
    : (r: Result<DrawCommand, DecodeError>)
    ensures r.Success? <==> ChunkSize(polygonSize) <= |poly|
    ensures r.Success? ==> |r.value.vertices| == polygonSize
    ensures r.Success? ==> forall i :: 0 <= i < polygonSize ==>
      r.value.vertices[i] == Point(Scale(poly[2 * i], width), Scale(poly[2 * i + 1], height))
    ensures r.Success? ==> var c := 2 * polygonSize;
      r.value.fill == Rgba(Channel(poly[c]), Channel(poly[c + 1]), Channel(poly[c + 2]), Channel(poly[c + 3]))
  {
    if |poly| < ChunkSize(polygonSize) then Failure(IndexOutOfRange)
    else
      var walk := ReadVertices(poly, 0, polygonSize, width, height);
      var c := walk.index;
      var fill := Rgba(Channel(poly[c]), Channel(poly[c + 1]), Channel(poly[c + 2]), Channel(poly[c + 3]));
      Success(DrawPolygon(walk.vertices, fill))
  }

  /** The loop over the blocks: one command per block, in block order; the first short block
      raises. */
  function DecodeChunks(chunks: seq<seq<real>>, polygonSize: nat, width: nat, height: nat)
    : (r: Result<seq<DrawCommand>, DecodeError>)
    ensures r.Success? <==> forall k :: 0 <= k < |chunks| ==> ChunkSize(polygonSize) <= |chunks[k]|
    ensures r.Success? ==> |r.value| == |chunks|
    ensures r.Success? ==> forall k :: 0 <= k < |chunks| ==>
      DecodePolygon(chunks[k], polygonSize, width, height) == Success(r.value[k])
  {
    if |chunks| == 0 then Success([])
    else
      match DecodePolygon(chunks[0], polygonSize, width, height)
      case Failure(e) => Failure(e)
      case Success(command) =>
        match DecodeChunks(chunks[1..], polygonSize, width, height)
        case Failure(e) => Failure(e)
        case Success(commands) =>
          assert forall k :: 1 <= k < |chunks| ==> chunks[k] == chunks[1..][k - 1];
          Success([command] + commands)
  }

  /** The whole genome: split into blocks of `ChunkSize(polygonSize)` and decode each, in block
      order. It succeeds exactly when every block is complete. */
  function Decode(data: seq<real>, polygonSize: nat, width: nat, height: nat)
    : (r: Result<seq<DrawCommand>, DecodeError>)
    ensures var chunks := List2Chunks(data, ChunkSize(polygonSize));
      r.Success? <==> AllFull(chunks, ChunkSize(polygonSize))
    ensures r.Success? ==> var chunks := List2Chunks(data, ChunkSize(polygonSize));
      |r.value| == |chunks| && forall k :: 0 <= k < |chunks| ==>
        DecodePolygon(chunks[k], polygonSize, width, height) == Success(r.value[k])
  {
    DecodeChunks(List2Chunks(data, ChunkSize(polygonSize)), polygonSize, width, height)
  }

  /** Decoding succeeds exactly when the genome length is a multiple of the block size, and then
      yields `|data| / ChunkSize(polygonSize)` commands. */
  lemma DecodeSucceeds(data: seq<real>, polygonSize: nat, width: nat, height: nat)
    ensures var r := Decode(data, polygonSize, width, height);
      && (r.Success? <==> |data| % ChunkSize(polygonSize) == 0)
      && (r.Success? ==> |r.value| == |data| / ChunkSize(polygonSize))
  {
    FullChunks(data, ChunkSize(polygonSize));
  }

  /** Command `k` of a decoded genome is the decoding of genes `k * ChunkSize .. (k + 1) * ChunkSize`. */
  lemma DecodeAt(data: seq<real>, polygonSize: nat, width: nat, height: nat, k: nat)
    requires Decode(data, polygonSize, width, height).Success?
    requires k < |Decode(data, polygonSize, width, height).value|
    ensures var lo := k * ChunkSize(polygonSize);
      && 0 <= lo && lo + ChunkSize(polygonSize) <= |data|
      && DecodePolygon(data[lo .. lo + ChunkSize(polygonSize)], polygonSize, width, height)
         == Success(Decode(data, polygonSize, width, height).value[k])
  {
    FullBlockAt(data, ChunkSize(polygonSize), k);
  }

  /** A coordinate scaled from a gene in [0, 1] lies in [0, extent]. */
  lemma ScaleInRange(gene: real, extent: nat)
    requires 0.0 <= gene <= 1.0
    ensures 0 <= Scale(gene, extent) <= extent
  {
    var e := extent as real;
    var p := e * gene;
    assert 0.0 <= p <= e by {
      FractionBetween(e, gene);
    }
    var t := Trunc(p);
    assert Scale(gene, extent) == t by {
      assert gene * e == p;
    }
    assert 0.0 <= t as real <= e;
  }

  predicate UnitGenes(genes: seq<real>)
  {
    forall i :: 0 <= i < |genes| ==> 0.0 <= genes[i] <= 1.0
  }

  lemma UnitSlice(genes: seq<real>, lo: nat, hi: nat)
    requires UnitGenes(genes) && lo <= hi <= |genes|
    ensures UnitGenes(genes[lo .. hi])
  {
    forall i | 0 <= i < hi - lo ensures 0.0 <= genes[lo .. hi][i] <= 1.0 {
      assert genes[lo .. hi][i] == genes[lo + i];
    }
  }

  /** The command's vertices lie on the canvas and its colour channels are bytes. */
  predicate InBounds(command: DrawCommand, width: nat, height: nat)
  {
    && (forall i :: 0 <= i < |command.vertices| ==>
          0 <= command.vertices[i].x <= width && 0 <= command.vertices[i].y <= height)
    && 0 <= command.fill.red <= 255 && 0 <= command.fill.green <= 255
    && 0 <= command.fill.blue <= 255 && 0 <= command.fill.alpha <= 255
  }

  /** Genes in [0, 1] give coordinates in [0, width] x [0, height] and colour channels in [0, 255]. */
  lemma PolygonInBounds(poly: seq<real>, polygonSize: nat, width: nat, height: nat)
    requires UnitGenes(poly)
    requires DecodePolygon(poly, polygonSize, width, height).Success?
    ensures InBounds(DecodePolygon(poly, polygonSize, width, height).value, width, height)
  {
    var command := DecodePolygon(poly, polygonSize, width, height).value;
    forall i | 0 <= i < polygonSize
      ensures 0 <= command.vertices[i].x <= width && 0 <= command.vertices[i].y <= height
    {
      ScaleInRange(poly[2 * i], width);
      ScaleInRange(poly[2 * i + 1], height);
    }
    var c := 2 * polygonSize;
    ScaleInRange(poly[c], 255);
    ScaleInRange(poly[c + 1], 255);
    ScaleInRange(poly[c + 2], 255);
    ScaleInRange(poly[c + 3], 255);
  }

  /** Command `k` of a genome of genes in [0, 1] is in bounds. */
  lemma CommandInBounds(data: seq<real>, polygonSize: nat, width: nat, height: nat, k: nat)
    requires UnitGenes(data)
    requires Decode(data, polygonSize, width, height).Success?
    requires k < |Decode(data, polygonSize, width, height).value|
    ensures InBounds(Decode(data, polygonSize, width, height).value[k], width, height)
  {
    var size := ChunkSize(polygonSize);
    DecodeAt(data, polygonSize, width, height, k);
    var lo := k * size;
    var block := data[lo .. lo + size];
    UnitSlice(data, lo, lo + size);
    PolygonInBounds(block, polygonSize, width, height);
    assert DecodePolygon(block, polygonSize, width, height).value
        == Decode(data, polygonSize, width, height).value[k];
  }

  /** Every command decoded from a genome of genes in [0, 1] is in bounds. */
  lemma DecodeInBounds(data: seq<real>, polygonSize: nat, width: nat, height: nat)
    requires UnitGenes(data)
    requires Decode(data, polygonSize, width, height).Success?
    ensures var commands := Decode(data, polygonSize, width, height).value;
      forall k :: 0 <= k < |commands| ==> InBounds(commands[k], width, height)
  {
    var commands := Decode(data, polygonSize, width, height).value;
    forall k | 0 <= k < |commands| ensures InBounds(commands[k], width, height) {
      CommandInBounds(data, polygonSize, width, height, k);
    }
  }
}

=== FILE: elitism.dfy ===
/** `eaSimpleWithElitismAndCallback`: DEAP's simple generational loop, changed so that the
    hall-of-fame items survive every generation unchanged and a callback runs after each one.
    Selection, variation, evaluation, the hall-of-fame update and the statistics are parameters;
    the loop's own bookkeeping is what is modelled. */
module Elitism {
  import opened Base

  type Genome = seq<real>

  /** A DEAP fitness: either deleted (`valid` is false) or carrying its objective values. */
  datatype Fitness = Invalid | Valid(values: seq<real>)

  datatype Individual = Individual(genome: Genome, fitness: Fitness)

  datatype HallOfFame = HallOfFame(items: seq<Individual>)

  /** One logbook line: the generation, how many individuals were evaluated, and the statistics. */
  datatype Record = Record(gen: nat, nevals: nat, stats: map<string, real>)

  datatype Logbook = Logbook(header: seq<string>, records: seq<Record>)

  /** `stats.fields` and `stats.compile`. */
  datatype Statistics = Statistics(fields: seq<string>, compile: seq<Individual> -> map<string, real>)

  /** `Statistics.compile` returns one entry per registered field. */
  ghost predicate Registered(s: Statistics)
  {
    forall pop: seq<Individual> :: s.compile(pop).Keys == (set f | f in s.fields)
  }

  /** The observable trace: a logbook line, or a call `callback(gen, best)`. */
  datatype Event = Logged(record: Record) | Notified(gen: nat, best: Individual)

  /** `ValueError` for a missing hall of fame; `IndexError` from `halloffame.items[0]`. */
  datatype RunError = MissingHallOfFame | EmptyHallOfFame

  /** The toolbox operators the loop calls. Randomness is not modelled: the generation number is
      passed to the random operators so that each generation may behave differently. */
  datatype Toolbox = Toolbox(
    select: (seq<Individual>, int, nat) -> seq<Individual>,
    vary: (seq<Individual>, real, real, nat) -> seq<Individual>,
    evaluate: Genome -> seq<real>,
    update: (HallOfFame, seq<Individual>) -> HallOfFame)

  // ---------------------------------------------------------------------------------------
  // What the loop relies on from DEAP
  // ---------------------------------------------------------------------------------------

  /** `select(population, k)` returns `k` individuals (none when `k <= 0`, as `range(k)` is empty). */
  ghost predicate SelectsCount(select: (seq<Individual>, int, nat) -> seq<Individual>)
  {
    forall pop: seq<Individual>, k: int, g: nat :: (k <= 0 || 0 < |pop|) ==> |select(pop, k, g)| == Max(0, k)
  }

  /** `varAnd` returns one (possibly altered) clone per input individual. */
  ghost predicate KeepsLength(vary: (seq<Individual>, real, real, nat) -> seq<Individual>)
  {
    forall o: seq<Individual>, c: real, m: real, g: nat :: |vary(o, c, m, g)| == |o|
  }

  /** `HallOfFame.update` only keeps old items or inserts individuals it was given. */
  ghost predicate DrawsFrom(update: (HallOfFame, seq<Individual>) -> HallOfFame)
  {
    forall h: HallOfFame, pop: seq<Individual>, i: int :: 0 <= i < |update(h, pop).items| ==>
      update(h, pop).items[i] in h.items || update(h, pop).items[i] in pop
  }

  /** A hall of fame of capacity `m` that is full whenever it has seen at least `m` individuals. */
  ghost predicate FixedHall(update: (HallOfFame, seq<Individual>) -> HallOfFame, m: nat)
  {
    forall h: HallOfFame, pop: seq<Individual> :: m <= |pop| ==> |update(h, pop).items| == m
  }


  // ---------------------------------------------------------------------------------------
  // Evaluation of individuals without a valid fitness
  // ---------------------------------------------------------------------------------------

  predicate AllValid(pop: seq<Individual>)
  {
    forall i :: 0 <= i < |pop| ==> pop[i].fitness.Valid?
  }

  /** `[ind for ind in population if not ind.fitness.valid]`. */
  function InvalidOnes(pop: seq<Individual>): (r: seq<Individual>)
    ensures |r| <= |pop|
    ensures forall x :: x in r ==> x in pop && x.fitness.Invalid?
    ensures forall i :: 0 <= i < |pop| && pop[i].fitness.Invalid? ==> pop[i] in r
  {
    if |pop| == 0 then []
    else
      var init := pop[..|pop| - 1];
      assert forall i :: 0 <= i < |init| ==> init[i] == pop[i];
      InvalidOnes(init) + (if pop[|pop| - 1].fitness.Invalid? then [pop[|pop| - 1]] else [])
  }

  /** The positions of the individuals without a valid fitness. */
  function InvalidPositions(pop: seq<Individual>): set<int>
  {
    set i | 0 <= i < |pop| && pop[i].fitness.Invalid?
  }

  /** `len(invalid_ind)` is the number of positions holding an individual without a valid fitness. */
  lemma {:induction false} InvalidOnesCount(pop: seq<Individual>)
    ensures |InvalidOnes(pop)| == |InvalidPositions(pop)|
  {
    if |pop| > 0 {
      var n := |pop| - 1;
      InvalidOnesCount(pop[..n]);
      PositionsSnoc(pop);
    }
  }

  lemma PositionsSnoc(pop: seq<Individual>)
    requires 0 < |pop|
    ensures var n := |pop| - 1;
      && n !in InvalidPositions(pop[..n])
      && InvalidPositions(pop) == InvalidPositions(pop[..n]) + (if pop[n].fitness.Invalid? then {n} else {})
  {
    var n := |pop| - 1;
    var init := pop[..n];
    assert forall i :: 0 <= i < n ==> init[i] == pop[i];
  }

  /** The number of individuals that need evaluating is zero exactly when all are valid, and equal
      to the population size exactly when none is. */
  lemma InvalidCount(pop: seq<Individual>)
    ensures |InvalidOnes(pop)| == 0 <==> AllValid(pop)
    ensures |InvalidOnes(pop)| == |pop| <==> forall i :: 0 <= i < |pop| ==> pop[i].fitness.Invalid?
  {
    NoneInvalid(pop);
    AllInvalid(pop);
  }

  lemma {:induction false} NoneInvalid(pop: seq<Individual>)
    ensures |InvalidOnes(pop)| == 0 <==> AllValid(pop)
  {
    if |pop| > 0 {
      var init := pop[..|pop| - 1];
      NoneInvalid(init);
      assert forall i :: 0 <= i < |init| ==> init[i] == pop[i];
      assert AllValid(pop) <==> AllValid(init) && pop[|pop| - 1].fitness.Valid?;
    }
  }

  lemma AllInvalid(pop: seq<Individual>)
    ensures |InvalidOnes(pop)| == |pop| <==> forall i :: 0 <= i < |pop| ==> pop[i].fitness.Invalid?
  {
    if forall i :: 0 <= i < |pop| ==> pop[i].fitness.Invalid? {
      InvalidWhenAll(pop);
    } else if |InvalidOnes(pop)| == |pop| {
      AllWhenInvalid(pop);
    }
  }

  lemma {:induction false} InvalidWhenAll(pop: seq<Individual>)
    requires forall i :: 0 <= i < |pop| ==> pop[i].fitness.Invalid?
    ensures |InvalidOnes(pop)| == |pop|
  {
    if |pop| > 0 {
      var init := pop[..|pop| - 1];
      assert forall i :: 0 <= i < |init| ==> init[i] == pop[i];
      InvalidWhenAll(init);
    }
  }

  lemma AllWhenInvalid(pop: seq<Individual>)
    requires |InvalidOnes(pop)| == |pop|
    ensures forall i :: 0 <= i < |pop| ==> pop[i].fitness.Invalid?
  {
    forall i | 0 <= i < |pop| ensures pop[i].fitness.Invalid? {
      if pop[i].fitness.Valid? {
        ValidShrinks(pop, i);
      }
    }
  }

  /** One individual with a valid fitness leaves fewer than `|pop|` to evaluate. */
  lemma {:induction false} ValidShrinks(pop: seq<Individual>, j: nat)
    requires j < |pop| && pop[j].fitness.Valid?
    ensures |InvalidOnes(pop)| < |pop|
  {
    var n := |pop| - 1;
    var init := pop[..n];
    var before := |InvalidOnes(init)|;
    assert |InvalidOnes(pop)| <= before + 1 && (j == n ==> |InvalidOnes(pop)| == before) by {
      InvalidOnesSnoc(pop);
    }
    if j < n {
      assert before < n by {
        assert init[j] == pop[j];
        ValidShrinks(init, j);
      }
    }
  }

  lemma InvalidOnesSnoc(pop: seq<Individual>)
    requires 0 < |pop|
    ensures var n := |pop| - 1;
      |InvalidOnes(pop)| == |InvalidOnes(pop[..n])| + if pop[n].fitness.Invalid? then 1 else 0
  {
  }

  function Evaluated(ind: Individual, evaluate: Genome -> seq<real>): Individual
  {
    if ind.fitness.Valid? then ind else Individual(ind.genome, Valid(evaluate(ind.genome)))
  }

  /** The evaluation pass: each invalid individual gets `evaluate(genome)` as its fitness values,
      valid ones are left alone, and afterwards every individual is valid. */
  function EvaluateInvalid(pop: seq<Individual>, evaluate: Genome -> seq<real>): (r: seq<Individual>)
    ensures |r| == |pop|
    ensures forall i :: 0 <= i < |pop| ==> r[i].genome == pop[i].genome
    ensures forall i :: 0 <= i < |pop| && pop[i].fitness.Valid? ==> r[i] == pop[i]
    ensures forall i :: 0 <= i < |pop| && pop[i].fitness.Invalid? ==> r[i].fitness == Valid(evaluate(pop[i].genome))
    ensures AllValid(r)
  {
    seq(|pop|, i requires 0 <= i < |pop| => Evaluated(pop[i], evaluate))
  }

  /** A second evaluation pass has nothing left to do. */
  lemma EvaluateIdempotent(pop: seq<Individual>, evaluate: Genome -> seq<real>)
    ensures EvaluateInvalid(EvaluateInvalid(pop, evaluate), evaluate) == EvaluateInvalid(pop, evaluate)
    ensures |InvalidOnes(EvaluateInvalid(pop, evaluate))| == 0
  {
    InvalidCount(EvaluateInvalid(pop, evaluate));
  }

  // ---------------------------------------------------------------------------------------
  // One generation
  // ---------------------------------------------------------------------------------------

  /** What one generation produces: the individuals `varAnd` returned, the same individuals
      evaluated, the new population, the updated hall of fame and the `nevals` count. */
  datatype Step = Step(varied: seq<Individual>, offspring: seq<Individual>, population: seq<Individual>,
                       hallOfFame: HallOfFame, nevals: nat)

  /** Select `|population| - hofSize` individuals, vary them, evaluate the invalid ones, append the
      hall-of-fame items, then update the hall of fame with the new population. The elites go in
      after evaluation and unchanged; `nevals` counts exactly the varied individuals left without a
      valid fitness. With a full hall of fame of `hofSize` items the population keeps its size. */
  function Generation(tb: Toolbox, population: seq<Individual>, hof: HallOfFame, hofSize: nat,
                      cxpb: real, mutpb: real, gen: nat): (s: Step)
    ensures s.varied == tb.vary(tb.select(population, |population| - hofSize, gen), cxpb, mutpb, gen)
    ensures s.offspring == EvaluateInvalid(s.varied, tb.evaluate)
    ensures s.nevals == |InvalidOnes(s.varied)| && s.nevals <= |s.offspring|
    ensures |s.population| == |s.offspring| + |hof.items|
    ensures s.population[..|s.offspring|] == s.offspring && s.population[|s.offspring|..] == hof.items
    ensures AllValid(s.offspring)
    ensures AllValid(hof.items) ==> AllValid(s.population)
    ensures SelectsCount(tb.select) && KeepsLength(tb.vary) ==>
      |s.varied| == |s.offspring| == Max(0, |population| - hofSize)
    ensures SelectsCount(tb.select) && KeepsLength(tb.vary) && hofSize <= |population| && |hof.items| == hofSize ==>
      |s.population| == |population| && s.nevals <= |population| - hofSize
    ensures s.hallOfFame == tb.update(hof, s.population)
  {
    var selected := tb.select(population, |population| - hofSize, gen);
    var varied := tb.vary(selected, cxpb, mutpb, gen);
    var offspring := EvaluateInvalid(varied, tb.evaluate);
    var next := offspring + hof.items;
    assert AllValid(hof.items) ==> AllValid(next) by {
      if AllValid(hof.items) {
        assert forall i :: 0 <= i < |next| ==> next[i] == if i < |offspring| then offspring[i] else hof.items[i - |offspring|];
      }
    }
    Step(varied, offspring, next, tb.update(hof, next), |InvalidOnes(varied)|)
  }

  /** If the hall of fame only ever holds individuals it was shown, a valid population and a valid
      hall of fame stay valid. */
  lemma GenerationKeepsValid(tb: Toolbox, population: seq<Individual>, hof: HallOfFame, hofSize: nat,
                             cxpb: real, mutpb: real, gen: nat)
    requires DrawsFrom(tb.update) && AllValid(hof.items)
    ensures AllValid(Generation(tb, population, hof, hofSize, cxpb, mutpb, gen).population)
    ensures AllValid(Generation(tb, population, hof, hofSize, cxpb, mutpb, gen).hallOfFame.items)
  {
    var s := Generation(tb, population, hof, hofSize, cxpb, mutpb, gen);
    UpdateKeepsValid(tb.update, hof, s.population);
  }

  lemma UpdateKeepsValid(update: (HallOfFame, seq<Individual>) -> HallOfFame, hof: HallOfFame, pop: seq<Individual>)
    requires DrawsFrom(update) && AllValid(hof.items) && AllValid(pop)
    ensures AllValid(update(hof, pop).items)
  {
    var items := update(hof, pop).items;
    forall i | 0 <= i < |items|
      ensures items[i].fitness.Valid?
    {
      assert items[i] in hof.items || items[i] in pop;
    }
  }

  // ---------------------------------------------------------------------------------------
  // The trace of a run
  // ---------------------------------------------------------------------------------------

  /** What generation `g` adds to the trace: its logbook line, then, when a callback was given and
      `g` is not the initial generation, the call `callback(g, halloffame.items[0])`; an empty hall
      of fame makes that call raise instead, so nothing is added for it. */
  function GenerationEvents(g: nat, record: Record, hof: HallOfFame, callback: bool): seq<Event>
  {
    [Logged(record)] + (if callback && 0 < g && 0 < |hof.items| then [Notified(g, hof.items[0])] else [])
  }

  /** The trace expected after logging `records`, with `halls[g]` the hall of fame after
      generation `g`. */
  function Schedule(records: seq<Record>, halls: seq<HallOfFame>, callback: bool): seq<Event>
    requires |halls| == |records|
  {
    if |records| == 0 then []
    else Schedule(records[..|records| - 1], halls[..|halls| - 1], callback)
         + GenerationEvents(|records| - 1, records[|records| - 1], halls[|halls| - 1], callback)
  }

  lemma ScheduleSnoc(records: seq<Record>, halls: seq<HallOfFame>, callback: bool, record: Record, hof: HallOfFame)
    requires |halls| == |records|
    ensures Schedule(records + [record], halls + [hof], callback)
            == Schedule(records, halls, callback) + GenerationEvents(|records|, record, hof, callback)
  {
    assert (records + [record])[..|records|] == records;
    assert (halls + [hof])[..|halls|] == halls;
  }

  /** The logbook lines of a trace, in order. */
  function LoggedRecords(events: seq<Event>): seq<Record>
  {
    if |events| == 0 then []
    else LoggedRecords(events[..|events| - 1])
         + (if events[|events| - 1].Logged? then [events[|events| - 1].record] else [])
  }

  /** The generations the callback was called for, in order. */
  function NotifiedGens(events: seq<Event>): seq<nat>
  {
    if |events| == 0 then []
    else NotifiedGens(events[..|events| - 1])
         + (if events[|events| - 1].Notified? then [events[|events| - 1].gen] else [])
  }

  lemma TraceAppend(a: seq<Event>, b: seq<Event>)
    ensures LoggedRecords(a + b) == LoggedRecords(a) + LoggedRecords(b)
    ensures NotifiedGens(a + b) == NotifiedGens(a) + NotifiedGens(b)
  {
    LoggedAppend(a, b);
    NotifiedAppend(a, b);
  }

  lemma {:induction false} LoggedAppend(a: seq<Event>, b: seq<Event>)
    ensures LoggedRecords(a + b) == LoggedRecords(a) + LoggedRecords(b)
    decreases |b|
  {
    if |b| == 0 {
      assert a + b == a;
    } else {
      var b' := b[..|b| - 1];
      LoggedAppend(a, b');
      assert (a + b)[..|a + b| - 1] == a + b';
      assert (a + b)[|a + b| - 1] == b[|b| - 1];
    }
  }

  lemma {:induction false} NotifiedAppend(a: seq<Event>, b: seq<Event>)
    ensures NotifiedGens(a + b) == NotifiedGens(a) + NotifiedGens(b)
    decreases |b|
  {
    if |b| == 0 {
      assert a + b == a;
    } else {
      var b' := b[..|b| - 1];
      NotifiedAppend(a, b');
      assert (a + b)[..|a + b| - 1] == a + b';
      assert (a + b)[|a + b| - 1] == b[|b| - 1];
    }
  }

  /** One generation's events log its record and notify at most its own generation. */
  lemma GenerationTrace(g: nat, record: Record, hof: HallOfFame, callback: bool)
    ensures LoggedRecords(GenerationEvents(g, record, hof, callback)) == [record]
    ensures NotifiedGens(GenerationEvents(g, record, hof, callback))
            == if callback && 0 < g && 0 < |hof.items| then [g] else []
  {
    var e := GenerationEvents(g, record, hof, callback);
    var logged := [Logged(record)];
    assert logged[..0] == [];
    assert LoggedRecords(logged) == [record] && NotifiedGens(logged) == [];
    if |e| == 2 {
      assert e[..1] == logged;
    } else {
      assert e == logged;
    }
  }

  /** `lo, lo + 1, ..., hi - 1`, Python's `range(lo, hi)`. */
  function Range(lo: nat, hi: nat): (r: seq<nat>)
    ensures |r| == Max(0, hi - lo)
    ensures forall i :: 0 <= i < |r| ==> r[i] == lo + i
    decreases hi - lo
  {
    if hi <= lo then [] else Range(lo, hi - 1) + [hi - 1]
  }

  /** Every hall of fame after generation 1 on has a first item to hand to the callback. */
  predicate Notifiable(halls: seq<HallOfFame>)
  {
    NotifiableUpTo(halls, |halls|)
  }

  /** The halls of fame of generations `1 .. n - 1` all have a first item. */
  predicate NotifiableUpTo(halls: seq<HallOfFame>, n: int)
  {
    forall g :: 1 <= g < n && g < |halls| ==> 0 < |halls[g].items|
  }

  /** Up to `n`, the halls of fame are those of the first `n` generations. */
  lemma NotifiablePrefix(halls: seq<HallOfFame>, n: nat)
    requires n <= |halls|
    ensures NotifiableUpTo(halls, n) <==> Notifiable(halls[..n])
  {
    assert forall g :: 0 <= g < n ==> halls[..n][g] == halls[g];
  }

  /** The scheduled trace logs exactly the records, in order. */
  lemma {:induction false} ScheduleLogs(records: seq<Record>, halls: seq<HallOfFame>, callback: bool)
    requires |halls| == |records|
    ensures LoggedRecords(Schedule(records, halls, callback)) == records
  {
    if |records| > 0 {
      var n := |records| - 1;
      var earlier := Schedule(records[..n], halls[..n], callback);
      var last := GenerationEvents(n, records[n], halls[n], callback);
      assert Schedule(records, halls, callback) == earlier + last;
      ScheduleLogs(records[..n], halls[..n], callback);
      LoggedAppend(earlier, last);
      GenerationTrace(n, records[n], halls[n], callback);
      SplitLast(records);
    }
  }

  /** A non-empty sequence is its front followed by its last element. */
  lemma SplitLast<T>(s: seq<T>)
    requires 0 < |s|
    ensures s == s[..|s| - 1] + [s[|s| - 1]]
  {
  }

  /** With a callback and a non-empty hall of fame after each generation, the callback is called
      once for each generation `1 .. |records| - 1`, in order, and never for generation 0; without
      a callback it is never called. */
  lemma {:induction false} ScheduleNotifies(records: seq<Record>, halls: seq<HallOfFame>, callback: bool)
    requires |halls| == |records| && (callback ==> Notifiable(halls))
    ensures NotifiedGens(Schedule(records, halls, callback)) == if callback then Range(1, |records|) else []
  {
    if |records| > 0 {
      var n := |records| - 1;
      assert callback ==> Notifiable(halls[..n]) by {
        if callback {
          forall g | 1 <= g < n ensures 0 < |halls[..n][g].items| {
            assert halls[..n][g] == halls[g];
          }
        }
      }
      ScheduleNotifies(records[..n], halls[..n], callback);
      TraceAppend(Schedule(records[..n], halls[..n], callback), GenerationEvents(n, records[n], halls[n], callback));
      GenerationTrace(n, records[n], halls[n], callback);
    }
  }

  /** The logbook lines are numbered `0, 1, ...` in order. */
  predicate Numbered(records: seq<Record>)
  {
    forall g :: 0 <= g < |records| ==> records[g].gen == g
  }

  /** The outcome of a run: the final population (as mutated in place up to a raise), the hall of
      fame, the logbook, the trace, the hall of fame after every update (`halls[g]` after
      generation `g`), the `hof_size` fixed after the first update, and the error raised if any. */
  datatype RunResult = RunResult(
    population: seq<Individual>,
    hallOfFame: Option<HallOfFame>,
    logbook: Logbook,
    events: seq<Event>,
    halls: seq<HallOfFame>,
    eliteCount: nat,
    error: Option<RunError>)

  /** `stats.compile(population) if stats else {}`: no columns without a statistics object, and
      exactly its registered fields when it compiles what it registered. */
  function Compile(stats: Option<Statistics>, pop: seq<Individual>): (r: map<string, real>)
    ensures stats.None? ==> |r| == 0
    ensures stats.Some? && Registered(stats.value) ==> r.Keys == (set f | f in stats.value.fields)
  {
    if stats.Some? then stats.value.compile(pop) else map[]
  }

  /** Every generation after the first evaluated at most `bound` individuals. */
  predicate NevalsAtMost(records: seq<Record>, bound: int)
  {
    forall g :: 1 <= g < |records| ==> records[g].nevals <= bound
  }

  predicate NoStats(records: seq<Record>)
  {
    forall g :: 0 <= g < |records| ==> records[g].stats == map[]
  }

  lemma ExtendTrace(records: seq<Record>, record: Record, halls: seq<HallOfFame>, hof: HallOfFame, bound: int)
    ensures Numbered(records + [record]) <==> Numbered(records) && record.gen == |records|
    ensures Notifiable(halls + [hof]) <==> Notifiable(halls) && (|halls| == 0 || 0 < |hof.items|)
    ensures NoStats(records + [record]) <==> NoStats(records) && record.stats == map[]
    ensures NevalsAtMost(records + [record], bound) <==> NevalsAtMost(records, bound) && (|records| == 0 || record.nevals <= bound)
  {
    var r := records + [record];
    assert forall g :: 0 <= g < |records| ==> r[g] == records[g];
    assert r[|records|] == record;
    var h := halls + [hof];
    assert forall g :: 0 <= g < |halls| ==> h[g] == halls[g];
    assert h[|halls|] == hof;
  }

  /** The population and hall of fame between two generations. */
  datatype Pool = Pool(population: seq<Individual>, hallOfFame: HallOfFame)

  /** The loop's fixed arguments, with `hof_size` as fixed after the first update. */
  datatype Config = Config(tb: Toolbox, cxpb: real, mutpb: real, hofSize: nat)

  /** What generations `1 .. n` leave behind: the final pool, their logbook lines and the hall of
      fame after each. */
  datatype Trail = Trail(pool: Pool, records: seq<Record>, halls: seq<HallOfFame>)

  /** What one generation leaves behind: the next pool, its logbook line and its hall of fame. */
  datatype Outcome = Outcome(pool: Pool, record: Record, hall: HallOfFame)

  /** Generations `1 .. n` of a loop whose generation `gen` turns pool `p` into `next(p, gen)`,
      logging one line and one hall of fame per generation. */
  function Iterate(next: (Pool, nat) -> Outcome, start: Pool, n: nat): (r: Trail)
    ensures |r.records| == n && |r.halls| == n
    decreases n
  {
    if n == 0 then Trail(start, [], [])
    else
      var before := Iterate(next, start, n - 1);
      var o := next(before.pool, n);
      Trail(o.pool, before.records + [o.record], before.halls + [o.hall])
  }

  /** The last generation run is the one the trail ends on. */
  lemma IterateLast(next: (Pool, nat) -> Outcome, start: Pool, n: nat)
    requires 0 < n
    ensures var o := next(Iterate(next, start, n - 1).pool, n);
      && Iterate(next, start, n).pool == o.pool
      && Iterate(next, start, n).records[n - 1] == o.record
      && Iterate(next, start, n).halls[n - 1] == o.hall
  {
  }

  /** Running more generations leaves the first `g` lines and halls of fame as they were. */
  lemma {:induction false} IterateStable(next: (Pool, nat) -> Outcome, start: Pool, n: nat, g: nat, i: nat)
    requires i < g <= n
    ensures Iterate(next, start, n).records[i] == Iterate(next, start, g).records[i]
    ensures Iterate(next, start, n).halls[i] == Iterate(next, start, g).halls[i]
    decreases n
  {
    if g < n {
      IterateStable(next, start, n - 1, g, i);
    }
  }

  /** Line `g` of a run of `n >= g` generations is the one generation `g` logged. */
  lemma IterateLine(next: (Pool, nat) -> Outcome, start: Pool, n: nat, g: nat)
    requires 1 <= g <= n
    ensures var o := next(Iterate(next, start, g - 1).pool, g);
      && Iterate(next, start, n).records[g - 1] == o.record
      && Iterate(next, start, n).halls[g - 1] == o.hall
  {
    IterateStable(next, start, n, g, g - 1);
    IterateLast(next, start, g);
  }

  /** Generation `gen` of the elitist loop, run on pool `p`: one `Generation`, its logbook line and
      the updated hall of fame. */
  function Advanced(c: Config, stats: Option<Statistics>, p: Pool, gen: nat): (o: Outcome)
    ensures var step := Generation(c.tb, p.population, p.hallOfFame, c.hofSize, c.cxpb, c.mutpb, gen);
      && o.pool == Pool(step.population, step.hallOfFame) && o.hall == step.hallOfFame
      && o.record.gen == gen && o.record.nevals == |InvalidOnes(step.varied)|
      && o.record.stats == Compile(stats, step.population)
  {
    var step := Generation(c.tb, p.population, p.hallOfFame, c.hofSize, c.cxpb, c.mutpb, gen);
    Outcome(Pool(step.population, step.hallOfFame), Record(gen, step.nevals, Compile(stats, step.population)),
            step.hallOfFame)
  }

  function Stepper(c: Config, stats: Option<Statistics>): (Pool, nat) -> Outcome
  {
    (p: Pool, gen: nat) => Advanced(c, stats, p, gen)
  }

  /** Reference definition of the loop: generations `1 .. n` run from `start`, each on the pool the
      previous one left, each logging `gen`, its `nevals` and the statistics of its population. */
  function Replay(c: Config, stats: Option<Statistics>, start: Pool, n: nat): (r: Trail)
    ensures |r.records| == n && |r.halls| == n
  {
    Iterate(Stepper(c, stats), start, n)
  }

  /** Generation `g` of the reference loop, run on the pool generation `g - 1` left. */
  function GenerationAt(c: Config, stats: Option<Statistics>, start: Pool, g: nat): (s: Step)
    requires 1 <= g
    ensures s.nevals == |InvalidOnes(s.varied)|
    ensures SelectsCount(c.tb.select) && KeepsLength(c.tb.vary) ==>
      |s.varied| == Max(0, |Replay(c, stats, start, g - 1).pool.population| - c.hofSize)
  {
    var before := Replay(c, stats, start, g - 1).pool;
    Generation(c.tb, before.population, before.hallOfFame, c.hofSize, c.cxpb, c.mutpb, g)
  }

  /** Line `g` of the reference loop is fixed once generation `g` has run: it reports generation
      `g`, the number of individuals evaluated in it, and the statistics of the population it
      produced from the pool generation `g - 1` left. */
  lemma ReplayLine(c: Config, stats: Option<Statistics>, start: Pool, n: nat, g: nat)
    requires 1 <= g <= n
    ensures Replay(c, stats, start, n).records[g - 1]
      == Record(g, GenerationAt(c, stats, start, g).nevals, Compile(stats, GenerationAt(c, stats, start, g).population))
    ensures Replay(c, stats, start, n).halls[g - 1] == GenerationAt(c, stats, start, g).hallOfFame
  {
    var next := Stepper(c, stats);
    var o := next(Replay(c, stats, start, g - 1).pool, g);
    assert Replay(c, stats, start, n).records[g - 1] == o.record && Replay(c, stats, start, n).halls[g - 1] == o.hall by {
      IterateLine(next, start, n, g);
    }
    var step := GenerationAt(c, stats, start, g);
    assert o == Outcome(Pool(step.population, step.hallOfFame), Record(g, step.nevals, Compile(stats, step.population)),
                        step.hallOfFame) by {
      AdvancedAt(c, stats, start, g);
    }
  }

  /** Generation `g` of the reference loop, as one step of `Iterate`. */
  lemma AdvancedAt(c: Config, stats: Option<Statistics>, start: Pool, g: nat)
    requires 1 <= g
    ensures var step := GenerationAt(c, stats, start, g);
      Stepper(c, stats)(Replay(c, stats, start, g - 1).pool, g)
      == Outcome(Pool(step.population, step.hallOfFame), Record(g, step.nevals, Compile(stats, step.population)),
                 step.hallOfFame)
  {
  }

  /** When selection, variation and the hall of fame keep their sizes, every pool of the reference
      loop has the starting population's size and a full hall of fame. */
  lemma {:induction false} ReplaySized(c: Config, stats: Option<Statistics>, start: Pool, g: nat)
    requires Sized(c.tb, c.hofSize, |start.population|) && |start.hallOfFame.items| == c.hofSize
    ensures |Replay(c, stats, start, g).pool.population| == |start.population|
    ensures |Replay(c, stats, start, g).pool.hallOfFame.items| == c.hofSize
    decreases g
  {
    if 0 < g {
      var before := Replay(c, stats, start, g - 1).pool;
      ReplaySized(c, stats, start, g - 1);
      ReplayPool(c, stats, start, g);
      StepperSized(c, stats, before, g);
    }
  }

  lemma ReplayPool(c: Config, stats: Option<Statistics>, start: Pool, g: nat)
    requires 0 < g
    ensures Replay(c, stats, start, g).pool == Stepper(c, stats)(Replay(c, stats, start, g - 1).pool, g).pool
  {
    IterateLast(Stepper(c, stats), start, g);
  }

  lemma StepperSized(c: Config, stats: Option<Statistics>, p: Pool, gen: nat)
    requires Sized(c.tb, c.hofSize, |p.population|) && |p.hallOfFame.items| == c.hofSize
    ensures |Stepper(c, stats)(p, gen).pool.population| == |p.population|
    ensures |Stepper(c, stats)(p, gen).pool.hallOfFame.items| == c.hofSize
  {
  }

  /** The current pool, and the logbook lines and halls of fame after generation 0, are those of
      the reference loop. */
  predicate Replayed(c: Config, stats: Option<Statistics>, start: Pool, pool: Pool,
                     records: seq<Record>, halls: seq<HallOfFame>)
  {
    && 0 < |records| && |halls| == |records|
    && Trail(pool, records[1..], halls[1..]) == Replay(c, stats, start, |records| - 1)
  }

  /** In a replayed run, logbook line `g >= 1` reports generation `g` of the reference loop: the
      number of its varied offspring without a valid fitness, and the statistics of its population. */
  lemma ReplayedLine(c: Config, stats: Option<Statistics>, start: Pool, pool: Pool,
                     records: seq<Record>, halls: seq<HallOfFame>, g: nat)
    requires Replayed(c, stats, start, pool, records, halls) && 1 <= g < |records|
    ensures records[g]
      == Record(g, GenerationAt(c, stats, start, g).nevals, Compile(stats, GenerationAt(c, stats, start, g).population))
    ensures records[g].nevals == |InvalidOnes(GenerationAt(c, stats, start, g).varied)|
    ensures halls[g] == GenerationAt(c, stats, start, g).hallOfFame
  {
    ReplayLine(c, stats, start, |records| - 1, g);
    assert records[g] == records[1..][g - 1] && halls[g] == halls[1..][g - 1];
  }

  /** With sizes kept, generation `g >= 1` of a replayed run evaluates exactly the invalid ones among
      `|population| - hof_size` varied offspring. */
  lemma ReplayedNevals(c: Config, stats: Option<Statistics>, start: Pool, pool: Pool,
                       records: seq<Record>, halls: seq<HallOfFame>, g: nat)
    requires Replayed(c, stats, start, pool, records, halls) && 1 <= g < |records|
    requires Sized(c.tb, c.hofSize, |start.population|) && |start.hallOfFame.items| == c.hofSize
    ensures var varied := GenerationAt(c, stats, start, g).varied;
      && records[g].nevals == |InvalidOnes(varied)|
      && |varied| == |start.population| - c.hofSize
  {
    ReplayedLine(c, stats, start, pool, records, halls, g);
    ReplaySized(c, stats, start, g - 1);
  }

  /** Every logbook line of a replayed run whose statistics compile what they registered carries
      exactly the registered fields, the header's statistics columns. */
  lemma LoggedColumns(c: Config, stats: Statistics, start: Pool, pool: Pool,
                      records: seq<Record>, halls: seq<HallOfFame>)
    requires Replayed(c, Some(stats), start, pool, records, halls) && Registered(stats)
    requires records[0].stats == Compile(Some(stats), start.population)
    ensures forall g :: 0 <= g < |records| ==> records[g].stats.Keys == (set f | f in stats.fields)
  {
    forall g | 0 < g < |records| ensures records[g].stats.Keys == (set f | f in stats.fields) {
      var population := GenerationAt(c, Some(stats), start, g).population;
      assert records[g].stats == Compile(Some(stats), population) by {
        ReplayedLine(c, Some(stats), start, pool, records, halls, g);
      }
    }
  }

  /** Running the next reference generation on a replayed state keeps it replayed. */
  lemma ReplayStep(c: Config, stats: Option<Statistics>, start: Pool, s: State, t: State)
    requires Replayed(c, stats, start, Pool(s.population, s.hallOfFame), s.records, s.halls)
    requires |t.records| == |s.records| + 1 && |t.halls| == |t.records|
    requires t.records[..|s.records|] == s.records && t.halls[..|s.halls|] == s.halls
    requires var step := Generation(c.tb, s.population, s.hallOfFame, c.hofSize, c.cxpb, c.mutpb, |s.records|);
      && t.population == step.population && t.hallOfFame == step.hallOfFame
      && t.records[|s.records|] == Record(|s.records|, step.nevals, Compile(stats, step.population))
      && t.halls[|s.halls|] == step.hallOfFame
    ensures Replayed(c, stats, start, Pool(t.population, t.hallOfFame), t.records, t.halls)
  {
    IterateLast(Stepper(c, stats), start, |s.records|);
    DropFirstSnoc(s.records, t.records);
    DropFirstSnoc(s.halls, t.halls);
  }

  /** A one-longer extension of `a`, without its first element, is `a` without it plus the new
      last element. */
  lemma DropFirstSnoc<T>(a: seq<T>, b: seq<T>)
    requires 0 < |a| && |b| == |a| + 1 && b[..|a|] == a
    ensures b[1..] == a[1..] + [b[|a|]]
  {
    assert b == a + [b[|a|]];
  }

  /** The loop state: the population, the hall of fame, the logbook lines, the hall of fame after
      every generation so far, and the trace. */
  datatype State = State(population: seq<Individual>, hallOfFame: HallOfFame,
                         records: seq<Record>, halls: seq<HallOfFame>, events: seq<Event>)

  /** The logbook is numbered, `halls` ends with the current hall of fame, and the trace is the
      scheduled one. */
  predicate Traced(s: State, callback: bool)
  {
    && 0 < |s.records| && |s.halls| == |s.records| && s.halls[|s.halls| - 1] == s.hallOfFame
    && Numbered(s.records) && s.events == Schedule(s.records, s.halls, callback)
  }

  /** One pass of the `for gen in range(1, ngen + 1)` body for `gen == |s.records|`: run the
      generation, log its record, and (through the trace) call the callback. */
  method Advance(tb: Toolbox, cxpb: real, mutpb: real, callback: bool, stats: Option<Statistics>,
                 hofSize: nat, s: State)
    returns (t: State)
    requires Traced(s, callback)
    ensures Traced(t, callback)
    ensures |t.records| == |s.records| + 1 && t.records[..|s.records|] == s.records && t.halls[..|s.halls|] == s.halls
    ensures var step := Generation(tb, s.population, s.hallOfFame, hofSize, cxpb, mutpb, |s.records|);
      && t.population == step.population && t.hallOfFame == step.hallOfFame
      && t.records[|s.records|] == Record(|s.records|, step.nevals, Compile(stats, step.population))
    ensures callback && Notifiable(s.halls) ==> (Notifiable(t.halls) <==> 0 < |t.hallOfFame.items|)
    ensures stats.None? && NoStats(s.records) ==> NoStats(t.records)
    ensures DrawsFrom(tb.update) && AllValid(s.hallOfFame.items) ==> AllValid(t.population) && AllValid(t.hallOfFame.items)
    ensures SelectsCount(tb.select) && KeepsLength(tb.vary) && FixedHall(tb.update, hofSize)
            && hofSize <= |s.population| && |s.hallOfFame.items| == hofSize ==>
      && |t.population| == |s.population| && |t.hallOfFame.items| == hofSize
      && (NevalsAtMost(s.records, |s.population| - hofSize) ==> NevalsAtMost(t.records, |s.population| - hofSize))
  {
    var gen := |s.records|;
    var step := Generation(tb, s.population, s.hallOfFame, hofSize, cxpb, mutpb, gen);
    if DrawsFrom(tb.update) && AllValid(s.hallOfFame.items) {
      GenerationKeepsValid(tb, s.population, s.hallOfFame, hofSize, cxpb, mutpb, gen);
    }
    var record := Record(gen, step.nevals, Compile(stats, step.population));
    ScheduleSnoc(s.records, s.halls, callback, record, step.hallOfFame);
    ExtendTrace(s.records, record, s.halls, step.hallOfFame, |s.population| - hofSize);
    var records, halls := s.records + [record], s.halls + [step.hallOfFame];
    assert records[..|s.records|] == s.records && halls[..|s.halls|] == s.halls;
    t := State(step.population, step.hallOfFame, records, halls,
               s.events + GenerationEvents(gen, record, step.hallOfFame, callback));
  }

  /** `eaSimpleWithElitismAndCallback(population, toolbox, cxpb, mutpb, ngen, callback, stats,
      halloffame)`. `callback` says whether a callback was passed; its calls appear in the trace. */
  method Run(population: seq<Individual>, tb: Toolbox, cxpb: real, mutpb: real, ngen: nat,
             callback: bool, stats: Option<Statistics>, halloffame: Option<HallOfFame>)
    returns (r: RunResult)
    ensures r.logbook.header == ["gen", "nevals"] + (if stats.Some? then stats.value.fields else [])
    // The missing hall of fame is reported after the initial evaluation has happened.
    ensures r.error == Some(MissingHallOfFame) <==> halloffame.None?
    ensures halloffame.None? ==>
      r.population == EvaluateInvalid(population, tb.evaluate) && r.logbook.records == [] && r.events == []
    // Logbook shape, gen-0 bookkeeping, and the trace.
    ensures halloffame.Some? ==>
      && 0 < |r.logbook.records| <= ngen + 1 && |r.halls| == |r.logbook.records|
      && Numbered(r.logbook.records)
      && r.events == Schedule(r.logbook.records, r.halls, callback)
      && r.logbook.records[0].nevals == |InvalidOnes(population)|
      && r.logbook.records[0].stats == Compile(stats, EvaluateInvalid(population, tb.evaluate))
      && r.halls[0] == tb.update(halloffame.value, EvaluateInvalid(population, tb.evaluate))
      && r.eliteCount == |r.halls[0].items|
      // Generations 1, 2, ... each run on the pool the previous one left.
      && r.hallOfFame.Some?
      && Replayed(Config(tb, cxpb, mutpb, r.eliteCount), stats,
                  Pool(EvaluateInvalid(population, tb.evaluate), r.halls[0]),
                  Pool(r.population, r.hallOfFame.value), r.logbook.records, r.halls)
    ensures r.error.None? ==> |r.logbook.records| == ngen + 1 && (callback ==> Notifiable(r.halls))
    // `IndexError` comes at the first generation whose hall of fame is empty.
    ensures r.error == Some(EmptyHallOfFame) ==>
      && callback && r.hallOfFame.Some? && r.hallOfFame.value.items == [] && r.halls[|r.halls| - 1] == r.hallOfFame.value
      && NotifiableUpTo(r.halls, |r.halls| - 1)
    // The callback is only called after generations 1, 2, ...: a raise needs one of them to have
    // run, so with `ngen == 0` nothing is raised.
    ensures r.error == Some(EmptyHallOfFame) ==> 2 <= |r.logbook.records|
    ensures halloffame.Some? && ngen == 0 ==> r.error.None?
    ensures stats.None? ==> NoStats(r.logbook.records)
    // Validity: every individual ends with a valid fitness.
    ensures halloffame.None? || (DrawsFrom(tb.update) && AllValid(halloffame.value.items)) ==> AllValid(r.population)
    // Size: when the hall of fame always holds exactly `hof_size` items, the population keeps its
    // size and each generation evaluates at most the `|population| - hof_size` offspring.
    ensures halloffame.Some? && SelectsCount(tb.select) && KeepsLength(tb.vary)
            && FixedHall(tb.update, r.eliteCount) && r.eliteCount <= |population| ==>
      && |r.population| == |population|
      && NevalsAtMost(r.logbook.records, |population| - r.eliteCount)
      && (0 < r.eliteCount ==> r.error.None?)
  {
    var header := ["gen", "nevals"] + (if stats.Some? then stats.value.fields else []);
    var pop := EvaluateInvalid(population, tb.evaluate);
    if halloffame.None? {
      return RunResult(pop, None, Logbook(header, []), [], [], 0, Some(MissingHallOfFame));
    }
    var s0 := Start(population, tb, callback, stats, halloffame.value);
    var hofSize := |s0.hallOfFame.items|;
    var s, raised := Evolve(tb, cxpb, mutpb, ngen, callback, stats, hofSize, s0);
    r := RunResult(s.population, Some(s.hallOfFame), Logbook(header, s.records), s.events, s.halls, hofSize,
                   if raised then Some(EmptyHallOfFame) else None);
  }

  /** The initial generation: evaluate the individuals without a valid fitness, update the hall of
      fame with the whole population, and log generation 0 with the number evaluated. */
  method Start(population: seq<Individual>, tb: Toolbox, callback: bool, stats: Option<Statistics>,
               halloffame: HallOfFame)
    returns (s0: State)
    ensures Traced(s0, callback) && |s0.records| == 1
    ensures s0.population == EvaluateInvalid(population, tb.evaluate)
    ensures s0.hallOfFame == tb.update(halloffame, s0.population)
    ensures s0.records[0].nevals == |InvalidOnes(population)|
    ensures s0.records[0].stats == Compile(stats, s0.population)
    ensures stats.None? ==> NoStats(s0.records)
    ensures DrawsFrom(tb.update) && AllValid(halloffame.items) ==> AllValid(s0.hallOfFame.items)
  {
    var pop := EvaluateInvalid(population, tb.evaluate);
    var hof := tb.update(halloffame, pop);
    var first := Record(0, |InvalidOnes(population)|, Compile(stats, pop));
    ScheduleSnoc([], [], callback, first, hof);
    if DrawsFrom(tb.update) && AllValid(halloffame.items) {
      UpdateKeepsValid(tb.update, halloffame, pop);
    }
    s0 := State(pop, hof, [first], [hof], GenerationEvents(0, first, hof, callback));
  }

  /** A selection and variation that keep counts, and a hall of fame that always holds exactly
      `hofSize` items once it has seen that many individuals, out of `n`. */
  ghost predicate Sized(tb: Toolbox, hofSize: nat, n: nat)
  {
    SelectsCount(tb.select) && KeepsLength(tb.vary) && FixedHall(tb.update, hofSize) && hofSize <= n
  }

  /** What the loop keeps from pass to pass, relative to the state `s0` after generation 0:
      the trace is the scheduled one, generation 0 is untouched, the state is the reference loop's,
      and the statistics, validity and size facts that held at the start still hold. */
  ghost predicate Kept(tb: Toolbox, cxpb: real, mutpb: real, callback: bool, stats: Option<Statistics>,
                       hofSize: nat, s0: State, s: State)
  {
    && Traced(s0, callback) && Traced(s, callback)
    && s.records[0] == s0.records[0] && s.halls[0] == s0.halls[0]
    && Replayed(Config(tb, cxpb, mutpb, hofSize), stats, Pool(s0.population, s0.hallOfFame),
                Pool(s.population, s.hallOfFame), s.records, s.halls)
    && (stats.None? && NoStats(s0.records) ==> NoStats(s.records))
    && (DrawsFrom(tb.update) && AllValid(s0.population) && AllValid(s0.hallOfFame.items) ==>
          AllValid(s.population) && AllValid(s.hallOfFame.items))
    && (Sized(tb, hofSize, |s0.population|) && |s0.hallOfFame.items| == hofSize ==>
          && |s.population| == |s0.population| && |s.hallOfFame.items| == hofSize
          && NevalsAtMost(s.records, |s0.population| - hofSize))
  }

  /** One pass of the loop body, stated against what the loop keeps. */
  method Continue(tb: Toolbox, cxpb: real, mutpb: real, callback: bool, stats: Option<Statistics>,
                  hofSize: nat, s0: State, s: State)
    returns (t: State)
    requires Kept(tb, cxpb, mutpb, callback, stats, hofSize, s0, s)
    ensures Kept(tb, cxpb, mutpb, callback, stats, hofSize, s0, t)
    ensures |t.records| == |s.records| + 1 && t.halls[..|s.halls|] == s.halls
    ensures callback && Notifiable(s.halls) ==> (Notifiable(t.halls) <==> 0 < |t.hallOfFame.items|)
    ensures Notifiable(s.halls) ==> NotifiableUpTo(t.halls, |t.halls| - 1)
  {
    t := Advance(tb, cxpb, mutpb, callback, stats, hofSize, s);
    assert forall g :: 0 <= g < |s.halls| ==> t.halls[g] == s.halls[g] by {
      assert t.halls[..|s.halls|] == s.halls;
    }
    ReplayStep(Config(tb, cxpb, mutpb, hofSize), stats, Pool(s0.population, s0.hallOfFame), s, t);
    assert t.records[0] == s.records[..|s.records|][0];
    assert t.halls[0] == s.halls[..|s.halls|][0];
  }

  /** `for gen in range(1, ngen + 1)`: the generations after the initial one, stopping early
      (`raised`) when the callback finds the hall of fame empty. */
  method Evolve(tb: Toolbox, cxpb: real, mutpb: real, ngen: nat, callback: bool, stats: Option<Statistics>,
                hofSize: nat, s0: State)
    returns (s: State, raised: bool)
    requires Traced(s0, callback) && |s0.records| == 1
    ensures Traced(s, callback) && |s.records| <= ngen + 1
    ensures s.records[0] == s0.records[0] && s.halls[0] == s0.halls[0]
    ensures Replayed(Config(tb, cxpb, mutpb, hofSize), stats, Pool(s0.population, s0.hallOfFame),
                     Pool(s.population, s.hallOfFame), s.records, s.halls)
    // The raise comes at the first generation whose hall of fame is empty.
    ensures raised ==> callback && 1 < |s.records| && s.hallOfFame.items == [] && NotifiableUpTo(s.halls, |s.halls| - 1)
    ensures ngen == 0 ==> !raised
    ensures !raised ==> |s.records| == ngen + 1 && (callback ==> Notifiable(s.halls))
    ensures stats.None? && NoStats(s0.records) ==> NoStats(s.records)
    ensures DrawsFrom(tb.update) && AllValid(s0.population) && AllValid(s0.hallOfFame.items) ==> AllValid(s.population)
    ensures Sized(tb, hofSize, |s0.population|) && |s0.hallOfFame.items| == hofSize ==>
      && |s.population| == |s0.population|
      && NevalsAtMost(s.records, |s0.population| - hofSize)
      && (0 < hofSize ==> !raised)
  {
    s, raised := s0, false;
    while |s.records| <= ngen
      invariant |s.records| <= ngen + 1
      invariant Kept(tb, cxpb, mutpb, callback, stats, hofSize, s0, s)
      invariant callback ==> Notifiable(s.halls)
      decreases ngen + 1 - |s.records|
    {
      s := Continue(tb, cxpb, mutpb, callback, stats, hofSize, s0, s);
      if callback && |s.hallOfFame.items| == 0 {
        return s, true;
      }
    }
  }
}

=== FILE: image_test.dfy ===
/** The `ImageTest` object: a reference image and a polygon size, turning a genome into a canvas
    and scoring the canvas against the reference. */
module ImageTest {
  import opened Base
  import opened Chunks
  import opened Codec
  import opened Pixels

  /** The state `__init__` sets up: the loaded reference image (as an RGB array) and the number
      of vertices per polygon. Width, height and pixel count are read off the reference. */
  datatype Tester = Tester(reference: Image, polygonSize: nat)
  {
    function Width(): nat
    {
      reference.width
    }

    function Height(): nat
    {
      reference.height
    }

    /** `numPixels`: the number of pixels of a well-formed reference. */
    function NumPixels(): (n: nat)
      ensures WellFormed(reference) ==> n == |reference.pixels|
    {
      reference.width * reference.height
    }

    /** The reference as OpenCV holds it, computed once in `__init__`. */
    function RefImageCv2(): Image
    {
      ToBgr(reference)
    }

    /** A loaded image file: a well-formed `uint8` array with at least one pixel. */
    predicate Valid()
    {
      WellFormed(reference) && 0 < NumPixels()
    }
  }

  /** `Image.new('RGB', (width, height))` fills with black. */
  const Black: Pixel := Pixel(0, 0, 0)

  /** What `polygonDataToImage` hands to the rasterizer: a fresh canvas of the given size and
      background, and the `draw.polygon` calls made on it, in call order. */
  datatype Canvas = Canvas(width: nat, height: nat, background: Pixel, commands: seq<DrawCommand>)

  /** `polygonDataToImage`: a fresh black canvas of the reference's size with one polygon drawn per
      block of genes. A short last block raises before the canvas is returned. */
  function PolygonDataToImage(t: Tester, data: seq<real>): (r: Result<Canvas, DecodeError>)
    ensures r.Success? <==> Decode(data, t.polygonSize, t.Width(), t.Height()).Success?
    ensures r.Success? ==> r.value.width == t.Width() && r.value.height == t.Height()
    ensures r.Success? ==> r.value.background == Black
    ensures r.Success? ==> r.value.commands == Decode(data, t.polygonSize, t.Width(), t.Height()).value
  {
    match Decode(data, t.polygonSize, t.Width(), t.Height())
    case Failure(e) => Failure(e)
    case Success(commands) => Success(Canvas(t.Width(), t.Height(), Black, commands))
  }

  /** Genes `k * ChunkSize(polygonSize)` up to the next block boundary exist and decode to `command`. */
  predicate BlockDecodesTo(t: Tester, data: seq<real>, k: int, command: DrawCommand)
  {
    var lo := k * ChunkSize(t.polygonSize);
    && 0 <= lo && lo + ChunkSize(t.polygonSize) <= |data|
    && DecodePolygon(data[lo .. lo + ChunkSize(t.polygonSize)], t.polygonSize, t.Width(), t.Height())
       == Success(command)
  }

  /** The canvas for a genome carries exactly one command per block of `ChunkSize(polygonSize)`
      genes, in genome order, and nothing else; a genome whose length is not a multiple of the
      block size yields no canvas. */
  lemma CanvasCommands(t: Tester, data: seq<real>)
    ensures PolygonDataToImage(t, data).Success? <==> |data| % ChunkSize(t.polygonSize) == 0
    ensures PolygonDataToImage(t, data).Success? ==>
      |PolygonDataToImage(t, data).value.commands| == |data| / ChunkSize(t.polygonSize)
    ensures PolygonDataToImage(t, data).Success? ==>
      forall k :: 0 <= k < |PolygonDataToImage(t, data).value.commands| ==>
        BlockDecodesTo(t, data, k, PolygonDataToImage(t, data).value.commands[k])
  {
    DecodeSucceeds(data, t.polygonSize, t.Width(), t.Height());
    if PolygonDataToImage(t, data).Success? {
      forall k | 0 <= k < |PolygonDataToImage(t, data).value.commands| {
        CanvasCommandAt(t, data, k);
      }
    }
  }

  /** Command `k` of a canvas is the decoding of the `k`-th block of genes. */
  lemma CanvasCommandAt(t: Tester, data: seq<real>, k: int)
    requires PolygonDataToImage(t, data).Success?
    requires 0 <= k < |PolygonDataToImage(t, data).value.commands|
    ensures BlockDecodesTo(t, data, k, PolygonDataToImage(t, data).value.commands[k])
  {
    DecodeAt(data, t.polygonSize, t.Width(), t.Height(), k);
  }

  /** `getMse`: both arrays converted to BGR, squared differences summed over every pixel and
      channel, divided by the pixel count (not by pixels times channels). It is never negative, it
      is zero exactly when the image equals the reference, and the channel order does not matter:
      the score is the sum taken in RGB order over the pixel count. */
  function GetMse(t: Tester, image: Image): (r: real)
    requires t.Valid() && WellFormed(image) && SameShape(image, t.reference)
    ensures 0.0 <= r
    ensures r == 0.0 <==> image == t.reference
    ensures r == SumSquared(image.pixels, t.reference.pixels) as real / t.NumPixels() as real
  {
    var sum := SumSquared(ToBgr(image).pixels, t.RefImageCv2().pixels);
    var count := t.NumPixels() as real;
    var rgbSum := SumSquared(image.pixels, t.reference.pixels);
    assert sum == rgbSum by {
      SwapPreservesSum(image.pixels, t.reference.pixels);
    }
    assert rgbSum == 0 <==> image == t.reference by {
      SumSquaredZero(image.pixels, t.reference.pixels);
    }
    DivideByCount(rgbSum as real, count);
    sum as real / count
  }

  /** An image at least as close to the reference as another, channel by channel, scores no
      higher. */
  lemma MseMonotone(t: Tester, near: Image, far: Image)
    requires t.Valid() && WellFormed(near) && WellFormed(far)
    requires SameShape(near, t.reference) && SameShape(far, t.reference)
    requires forall i :: 0 <= i < |near.pixels| ==> NoFurther(near.pixels[i], far.pixels[i], t.reference.pixels[i])
    ensures GetMse(t, near) <= GetMse(t, far)
  {
    SumSquaredMonotone(near.pixels, far.pixels, t.reference.pixels);
    DivideMonotone(SumSquared(near.pixels, t.reference.pixels) as real,
                   SumSquared(far.pixels, t.reference.pixels) as real, t.NumPixels() as real);
  }

  /** The rasterizer returns a well-formed array of the canvas's size. */
  ghost predicate Rasterizes(rasterize: Canvas -> Image)
  {
    forall c: Canvas :: WellFormed(rasterize(c)) && rasterize(c).width == c.width && rasterize(c).height == c.height
  }

  /** `getDifference`: render the genome, then score it with MSE when `methodName == "MSE"` and with
      `1 - SSIM` (computed on the BGR arrays) for every other method string. */
  function GetDifference(t: Tester, data: seq<real>, methodName: string,
                         rasterize: Canvas -> Image, ssim: (Image, Image) -> real)
    : (r: Result<real, DecodeError>)
    requires t.Valid() && Rasterizes(rasterize)
    ensures r.Success? <==> PolygonDataToImage(t, data).Success?
    ensures r.Success? && methodName == "MSE" ==>
      var image := rasterize(PolygonDataToImage(t, data).value);
      r.value == SumSquared(image.pixels, t.reference.pixels) as real / t.NumPixels() as real
    ensures r.Success? && methodName == "MSE" ==> r.value == GetMse(t, rasterize(PolygonDataToImage(t, data).value))
    ensures r.Success? && methodName != "MSE" ==>
      r.value == 1.0 - ssim(ToBgr(rasterize(PolygonDataToImage(t, data).value)), t.RefImageCv2())
  {
    match PolygonDataToImage(t, data)
    case Failure(e) => Failure(e)
    case Success(canvas) =>
      var image := rasterize(canvas);
      if methodName == "MSE" then Success(GetMse(t, image))
      else Success(1.0 - ssim(ToBgr(image), t.RefImageCv2()))
  }
}

=== FILE: pixels.dfy ===
/** Pixel arrays and the sum of squared channel differences behind `getMse`. */
module Pixels {
  import opened Base

  /** One pixel's three channel values, in the array's own channel order. */
  datatype Pixel = Pixel(c0: int, c1: int, c2: int)

  predicate IsByte(v: int)
  {
    0 <= v < 256
  }

  /** A `height x width x 3` array, stored row by row: pixel (x, y) is `pixels[y * width + x]`. */
  datatype Image = Image(width: nat, height: nat, pixels: seq<Pixel>)

  /** The array has one pixel per position and every channel is a `uint8`. */
  predicate WellFormed(img: Image)
  {
    && |img.pixels| == img.width * img.height
    && forall i :: 0 <= i < |img.pixels| ==>
         IsByte(img.pixels[i].c0) && IsByte(img.pixels[i].c1) && IsByte(img.pixels[i].c2)
  }

  predicate SameShape(a: Image, b: Image)
  {
    a.width == b.width && a.height == b.height
  }

  function Square(v: int): nat
  {
    v * v
  }

  /** The squared differences of one pixel pair, summed over the three channels. */
  function PixelError(p: Pixel, q: Pixel): nat
  {
    Square(p.c0 - q.c0) + Square(p.c1 - q.c1) + Square(p.c2 - q.c2)
  }

  /** The squared differences summed over every pixel and every channel. */
  function SumSquared(a: seq<Pixel>, b: seq<Pixel>): nat
    requires |a| == |b|
    decreases |a|
  {
    if |a| == 0 then 0
    else SumSquared(a[..|a| - 1], b[..|a| - 1]) + PixelError(a[|a| - 1], b[|a| - 1])
  }

  /** `cv2.cvtColor(..., COLOR_RGB2BGR)` on one pixel: the first and third channels trade places. */
  function SwapRedBlue(p: Pixel): Pixel
  {
    Pixel(p.c2, p.c1, p.c0)
  }

  /** Every pixel of a row-major array with its channels swapped. */
  function SwapAll(ps: seq<Pixel>): (r: seq<Pixel>)
    ensures |r| == |ps|
    ensures forall i :: 0 <= i < |ps| ==> r[i] == SwapRedBlue(ps[i])
  {
    seq(|ps|, i requires 0 <= i < |ps| => SwapRedBlue(ps[i]))
  }

  /** `cv2.cvtColor(image, COLOR_RGB2BGR)`: the same shape, every pixel's channels reordered. */
  function ToBgr(img: Image): (r: Image)
    ensures r.width == img.width && r.height == img.height && |r.pixels| == |img.pixels|
    ensures forall i :: 0 <= i < |img.pixels| ==>
      r.pixels[i].c0 == img.pixels[i].c2 && r.pixels[i].c1 == img.pixels[i].c1 && r.pixels[i].c2 == img.pixels[i].c0
  {
    Image(img.width, img.height, SwapAll(img.pixels))
  }

  /** Converting twice gives the image back: the channel swap is its own inverse. */
  lemma ToBgrInvolution(img: Image)
    ensures ToBgr(ToBgr(img)) == img
    ensures WellFormed(img) <==> WellFormed(ToBgr(img))
  {
    assert ToBgr(ToBgr(img)).pixels == img.pixels;
  }

  /** The sum over a prefix one pixel longer adds that pixel's error. */
  lemma SumSquaredSnoc(a: seq<Pixel>, b: seq<Pixel>, i: nat)
    requires |a| == |b| && i < |a|
    ensures SumSquared(a[..i + 1], b[..i + 1]) == SumSquared(a[..i], b[..i]) + PixelError(a[i], b[i])
  {
    assert a[..i + 1][..i] == a[..i];
    assert b[..i + 1][..i] == b[..i];
  }

  /** Reordering the channels of both arrays the same way leaves the sum unchanged. */
  lemma {:induction false} SwapPreservesSum(a: seq<Pixel>, b: seq<Pixel>)
    requires |a| == |b|
    ensures SumSquared(SwapAll(a), SwapAll(b)) == SumSquared(a, b)
    decreases |a|
  {
    if |a| > 0 {
      var n := |a| - 1;
      SwapPreservesSum(a[..n], b[..n]);
      assert SwapAll(a)[..n] == SwapAll(a[..n]);
      assert SwapAll(b)[..n] == SwapAll(b[..n]);
    }
  }

  /** A pixel pair has no error exactly when the pixels are equal. */
  lemma PixelErrorZero(p: Pixel, q: Pixel)
    ensures PixelError(p, q) == 0 <==> p == q
  {
    if PixelError(p, q) == 0 {
      assert Square(p.c0 - q.c0) == 0 && Square(p.c1 - q.c1) == 0 && Square(p.c2 - q.c2) == 0;
    }
  }

  /** The sum is zero exactly when the two arrays are equal. */
  lemma {:induction false} SumSquaredZero(a: seq<Pixel>, b: seq<Pixel>)
    requires |a| == |b|
    ensures SumSquared(a, b) == 0 <==> a == b
    decreases |a|
  {
    if |a| > 0 {
      var n := |a| - 1;
      SumSquaredZero(a[..n], b[..n]);
      var p, q := a[n], b[n];
      PixelErrorZero(p, q);
      assert a == a[..n] + [p];
      assert b == b[..n] + [q];
    }
  }

  function Abs(v: int): nat
  {
    if v < 0 then -v else v
  }

  lemma SquareMonotone(u: int, v: int)
    requires Abs(u) <= Abs(v)
    ensures Square(u) <= Square(v)
  {
    var x, y := Abs(u), Abs(v);
    assert Square(u) == x * x && Square(v) == y * y;
    MulLeft(x, y, x);
    MulLeft(x, y, y);
  }

  /** Channel by channel, `p` is at least as close to `r` as `q` is. */
  predicate NoFurther(p: Pixel, q: Pixel, r: Pixel)
  {
    && Abs(p.c0 - r.c0) <= Abs(q.c0 - r.c0)
    && Abs(p.c1 - r.c1) <= Abs(q.c1 - r.c1)
    && Abs(p.c2 - r.c2) <= Abs(q.c2 - r.c2)
  }

  /** Moving pixels no further from the reference, channel by channel, never raises the sum. */
  lemma {:induction false} SumSquaredMonotone(near: seq<Pixel>, far: seq<Pixel>, reference: seq<Pixel>)
    requires |near| == |far| == |reference|
    requires forall i :: 0 <= i < |near| ==> NoFurther(near[i], far[i], reference[i])
    ensures SumSquared(near, reference) <= SumSquared(far, reference)
    decreases |near|
  {
    if |near| > 0 {
      var n := |near| - 1;
      SumSquaredMonotone(near[..n], far[..n], reference[..n]);
      var p, q, r := near[n], far[n], reference[n];
      SquareMonotone(p.c0 - r.c0, q.c0 - r.c0);
      SquareMonotone(p.c1 - r.c1, q.c1 - r.c1);
      SquareMonotone(p.c2 - r.c2, q.c2 - r.c2);
    }
  }

  /** The array reduction `np.sum(diff ** 2)`: a row-major walk over rows and columns, with the three
      channels of each pixel summed by `PixelError`. */
  method SumOfSquaredDifferences(a: Image, b: Image) returns (total: nat)
    requires WellFormed(a) && WellFormed(b) && SameShape(a, b)
    ensures total == SumSquared(a.pixels, b.pixels)
  {
    total := 0;
    var i := 0;
    for y := 0 to a.height
      invariant i == y * a.width
      invariant total == SumSquared(a.pixels[..i], b.pixels[..i])
    {
      MulLeft(y + 1, a.height, a.width);
      MulSucc(y, a.width);
      for x := 0 to a.width
        invariant i == y * a.width + x
        invariant total == SumSquared(a.pixels[..i], b.pixels[..i])
      {
        SumSquaredSnoc(a.pixels, b.pixels, i);
        total := total + PixelError(a.pixels[i], b.pixels[i]);
        i := i + 1;
      }
    }
    assert a.pixels[..i] == a.pixels;
    assert b.pixels[..i] == b.pixels;
  }
}

=== FILE: reconstruct.dfy ===
/** The run script: the problem and algorithm constants, the genome generator, the fitness
    function handed to the toolbox, and the snapshot callback passed to the generational loop. */
module Reconstruct {
  import opened Base
  import opened Codec
  import opened Pixels
  import opened ImageTest
  import opened Elitism

  // ---------------------------------------------------------------------------------------
  // Configuration
  // ---------------------------------------------------------------------------------------

  const PolygonSize: nat := 3
  const NumOfPolygons: nat := 100
  /** Two coordinates per vertex, three colour values and one alpha value per polygon. */
  const NumOfParams: nat := NumOfPolygons * (PolygonSize * 2 + 4)

  const PopulationSize: nat := 200
  const PCrossover: real := 0.9
  const PMutation: real := 0.5
  const MaxGenerations: nat := 5000
  const HallOfFameSize: nat := 20

  const BoundsLow: real := 0.0
  const BoundsHigh: real := 1.0

  /** `FitnessMin`: one objective, weight -1 (minimise). */
  const FitnessWeights: seq<real> := [-1.0]

  /** `mutPolynomialBounded`'s per-gene probability. */
  const MutationIndpb: real := 1.0 / NumOfParams as real

  /** `saveImage` acts every this many generations. */
  const SnapshotPeriod: nat := 100

  /** The fields registered on the statistics object, in registration order. */
  const StatsFields: seq<string> := ["min", "avg"]

  /** The statistics columns registered on the statistics object, and the logbook header they give. */
  lemma StatsColumns()
    ensures (set f | f in StatsFields) == {"min", "avg"}
    ensures ["gen", "nevals"] + StatsFields == ["gen", "nevals", "min", "avg"]
  {
    assert "min" in StatsFields && "avg" in StatsFields;
  }

  /** The constants fit together: a genome is exactly `NumOfPolygons` full decoder blocks, the hall
      of fame fits in the population, and one gene per individual is mutated on average. */
  lemma ConfigurationConsistent()
    ensures NumOfParams == 1000
    ensures NumOfParams % ChunkSize(PolygonSize) == 0 && NumOfParams / ChunkSize(PolygonSize) == NumOfPolygons
    ensures HallOfFameSize <= PopulationSize && PopulationSize - HallOfFameSize == 180
    ensures MutationIndpb * NumOfParams as real == 1.0
    ensures BoundsLow <= BoundsHigh
  {
  }

  // ---------------------------------------------------------------------------------------
  // Genome generation
  // ---------------------------------------------------------------------------------------

  /** `random.uniform(a, b)`: `a + (b - a) * u` for a draw `u` of `random.random()`, so it lies
      between `a` and `b` whichever is larger. */
  function Uniform(a: real, b: real, u: real): (r: real)
    ensures 0.0 <= u <= 1.0 && a <= b ==> a <= r <= b
    ensures 0.0 <= u <= 1.0 && b < a ==> b <= r <= a
  {
    var d := b - a;
    var part := d * u;
    FractionBetween(d, u);
    a + part
  }

  /** `randomFloat(low, up)`: `NumOfParams` uniform values, the `i`-th from draw `draws(i)`. Every
      value lies between the bounds when the draws lie in [0, 1]. */
  function RandomFloat(low: real, up: real, draws: nat -> real): (r: seq<real>)
    ensures |r| == NumOfParams
    ensures (forall i: nat :: i < NumOfParams ==> 0.0 <= draws(i) <= 1.0) && low <= up ==>
      forall i :: 0 <= i < |r| ==> low <= r[i] <= up
    ensures (forall i: nat :: i < NumOfParams ==> 0.0 <= draws(i) <= 1.0) && up < low ==>
      forall i :: 0 <= i < |r| ==> up <= r[i] <= low
  {
    seq(NumOfParams, i requires 0 <= i => Uniform(low, up, draws(i)))
  }

  /** The draws of `random.random()` all lie in [0, 1]. */
  ghost predicate UnitDraws(draws: nat -> nat -> real)
  {
    forall j: nat, i: nat :: 0.0 <= draws(j)(i) <= 1.0
  }

  /** `creator.individualCreator()`: a fresh `randomFloat(BOUNDS_LOW, BOUNDS_HIGH)` genome with no
      fitness yet; its genes lie in [0, 1] when the draws do. */
  function IndividualCreator(draws: nat -> real): (x: Individual)
    ensures |x.genome| == NumOfParams && x.fitness.Invalid?
    ensures (forall i: nat :: i < NumOfParams ==> 0.0 <= draws(i) <= 1.0) ==> UnitGenes(x.genome)
  {
    Individual(RandomFloat(BoundsLow, BoundsHigh, draws), Invalid)
  }

  /** `populationCreator(n)`: `n` individuals, each a fresh `randomFloat(BOUNDS_LOW, BOUNDS_HIGH)`
      genome (the `j`-th from draws `draws(j)`) with no fitness yet. */
  function PopulationCreator(n: nat, draws: nat -> nat -> real): (r: seq<Individual>)
    ensures |r| == n
    ensures forall j :: 0 <= j < n ==> |r[j].genome| == NumOfParams && r[j].fitness.Invalid?
    ensures UnitDraws(draws) ==> forall j :: 0 <= j < n ==> UnitGenes(r[j].genome)
  {
    var r := seq(n, j requires 0 <= j => IndividualCreator(draws(j)));
    assert forall j :: 0 <= j < n ==> r[j] == IndividualCreator(draws(j));
    r
  }

  /** Every individual of the initial population is evaluated in generation 0, so its logbook line
      reports `nevals == POPULATION_SIZE`. */
  lemma InitialEvaluations(draws: nat -> nat -> real)
    ensures |InvalidOnes(PopulationCreator(PopulationSize, draws))| == PopulationSize
  {
    InvalidCount(PopulationCreator(PopulationSize, draws));
  }

  // ---------------------------------------------------------------------------------------
  // Fitness
  // ---------------------------------------------------------------------------------------

  /** A genome of the configured length decodes to exactly `NumOfPolygons` triangles; when its genes
      lie in [0, 1] every vertex and colour channel is in range. */
  lemma ConfiguredGenomeDecodes(t: Tester, genome: seq<real>)
    requires t.polygonSize == PolygonSize && |genome| == NumOfParams
    ensures PolygonDataToImage(t, genome).Success?
    ensures var commands := PolygonDataToImage(t, genome).value.commands;
      && |commands| == NumOfPolygons
      && (forall k :: 0 <= k < |commands| ==> |commands[k].vertices| == PolygonSize)
      && (UnitGenes(genome) ==> forall k :: 0 <= k < |commands| ==> InBounds(commands[k], t.Width(), t.Height()))
  {
    assert ChunkSize(t.polygonSize) == 10 && |genome| == 1000;
    assert |genome| % ChunkSize(t.polygonSize) == 0 && |genome| / ChunkSize(t.polygonSize) == NumOfPolygons;
    CanvasCommands(t, genome);
    var commands := PolygonDataToImage(t, genome).value.commands;
    forall k | 0 <= k < |commands| ensures |commands[k].vertices| == PolygonSize {
      CanvasCommandAt(t, genome, k);
    }
    if UnitGenes(genome) {
      DecodeInBounds(genome, t.polygonSize, t.Width(), t.Height());
    }
  }

  /** `getDiff`: a one-element fitness tuple holding the MSE score of the rendered genome. It fails
      exactly when the genome is not a whole number of blocks. */
  function GetDiff(t: Tester, rasterize: Canvas -> Image, ssim: (Image, Image) -> real, individual: seq<real>)
    : (r: Result<seq<real>, DecodeError>)
    requires t.Valid() && Rasterizes(rasterize)
    ensures r.Success? <==> |individual| % ChunkSize(t.polygonSize) == 0
    ensures r.Success? ==> |r.value| == |FitnessWeights|
    ensures r.Success? ==>
      PolygonDataToImage(t, individual).Success? && r.value[0] == GetMse(t, rasterize(PolygonDataToImage(t, individual).value))
    ensures r.Success? ==> 0.0 <= r.value[0]
  {
    CanvasCommands(t, individual);
    match GetDifference(t, individual, "MSE", rasterize, ssim)
    case Failure(e) => Failure(e)
    case Success(d) => Success([d])
  }

  /** DEAP's fitness comparison for `weights == (-1.0,)`: fitness `a` is better than `b` when its
      weighted value is larger, that is when its score is smaller. */
  function Better(a: seq<real>, b: seq<real>): (r: bool)
    requires |a| == |FitnessWeights| && |b| == |FitnessWeights|
    ensures r <==> a[0] < b[0]
  {
    a[0] * FitnessWeights[0] > b[0] * FitnessWeights[0]
  }

  // ---------------------------------------------------------------------------------------
  // Snapshots
  // ---------------------------------------------------------------------------------------

  /** What `saveImage` writes: the generation and the genome drawn. */
  datatype Snapshot = Snapshot(gen: nat, polygonData: seq<real>)

  /** `saveImage(gen, polygonData)`: a snapshot exactly on generations divisible by 100. */
  function SaveImage(gen: nat, polygonData: seq<real>): (r: Option<Snapshot>)
    ensures r.Some? <==> gen % SnapshotPeriod == 0
    ensures r.Some? ==> r.value.gen == gen && r.value.polygonData == polygonData
  {
    if gen % SnapshotPeriod == 0 then Some(Snapshot(gen, polygonData)) else None
  }

  /** The generations, among those the callback is called for, on which `saveImage` acts. */
  function SnapshotGens(gens: seq<nat>): seq<nat>
  {
    if |gens| == 0 then []
    else SnapshotGens(gens[..|gens| - 1])
         + (if SaveImage(gens[|gens| - 1], []).Some? then [gens[|gens| - 1]] else [])
  }

  /** `100, 200, ...` up to `n`. */
  function Multiples(n: nat): seq<nat>
  {
    seq(n / SnapshotPeriod, i requires 0 <= i => SnapshotPeriod * (i + 1))
  }

  /** One more generation adds a multiple exactly when it is one. */
  lemma MultiplesStep(n: nat)
    requires 0 < n
    ensures Multiples(n) == Multiples(n - 1) + (if n % SnapshotPeriod == 0 then [n] else [])
  {
    if n % SnapshotPeriod == 0 {
      assert n / SnapshotPeriod == (n - 1) / SnapshotPeriod + 1;
    } else {
      assert n / SnapshotPeriod == (n - 1) / SnapshotPeriod;
    }
  }

  /** Over the callback generations `1 .. n`, snapshots are taken at exactly `100, 200, ...`, in
      order. */
  lemma {:induction false} SnapshotSchedule(n: nat)
    ensures SnapshotGens(Range(1, n + 1)) == Multiples(n)
  {
    if n > 0 {
      var gens := Range(1, n + 1);
      var earlier := Range(1, n);
      assert gens == earlier + [n];
      assert gens[..n - 1] == earlier;
      var last := if SaveImage(n, []).Some? then [n] else [];
      assert SnapshotGens(gens) == SnapshotGens(earlier) + last;
      SnapshotSchedule(n - 1);
      MultiplesStep(n);
    }
  }

  /** A run that completes with the snapshot callback (a non-empty hall of fame after every
      generation) saves the best individual at generations `100, 200, ...`, never at generation 0;
      the configured 5000 generations give 50 snapshots, the last at generation 5000. */
  lemma RunSnapshots(records: seq<Record>, halls: seq<HallOfFame>)
    requires 0 < |records| && |halls| == |records| && Notifiable(halls)
    ensures SnapshotGens(NotifiedGens(Schedule(records, halls, true))) == Multiples(|records| - 1)
    ensures |records| == MaxGenerations + 1 ==>
      var snaps := Multiples(|records| - 1);
      |snaps| == 50 && 0 !in snaps && snaps[0] == 100 && snaps[49] == MaxGenerations
  {
    ScheduleNotifies(records, halls, true);
    SnapshotSchedule(|records| - 1);
  }

  // ---------------------------------------------------------------------------------------
  // The run
  // ---------------------------------------------------------------------------------------

  /** `main()`: a fresh population of `POPULATION_SIZE`, statistics registering `min` and `avg`,
      an empty hall of fame of `HALL_OF_FAME_SIZE`, and the elitist loop with the configured
      probabilities, `MAX_GENERATIONS` and `saveImage` as callback. The operators registered on the
      toolbox and the statistics' `compile` are parameters. */
  method Evolution(tb: Toolbox, draws: nat -> nat -> real, compile: seq<Individual> -> map<string, real>)
    returns (r: RunResult)
    ensures r.logbook.header == ["gen", "nevals", "min", "avg"]
    ensures r.error != Some(MissingHallOfFame)
    ensures 0 < |r.logbook.records| && |r.halls| == |r.logbook.records| && r.hallOfFame.Some?
    ensures r.logbook.records[0].nevals == PopulationSize
    ensures Registered(Statistics(StatsFields, compile)) ==>
      forall g :: 0 <= g < |r.logbook.records| ==> r.logbook.records[g].stats.Keys == {"min", "avg"}
    // Every generation runs with the configured probabilities on the pool the previous one left.
    ensures Replayed(Config(tb, PCrossover, PMutation, r.eliteCount), Some(Statistics(StatsFields, compile)),
                     Pool(EvaluateInvalid(PopulationCreator(PopulationSize, draws), tb.evaluate), r.halls[0]),
                     Pool(r.population, r.hallOfFame.value), r.logbook.records, r.halls)
    // With a hall of fame that fills up to its size, twenty elites survive each generation, the
    // run completes, and it saves fifty snapshots, at generations 100, 200, ..., 5000.
    ensures Sized(tb, HallOfFameSize, PopulationSize) ==>
      && r.eliteCount == HallOfFameSize && |r.population| == PopulationSize && r.error.None?
      && |r.logbook.records| == MaxGenerations + 1
      && SnapshotGens(NotifiedGens(r.events)) == Multiples(MaxGenerations)
  {
    var population := PopulationCreator(PopulationSize, draws);
    var stats := Statistics(StatsFields, compile);
    var hof := HallOfFame([]);
    r := Run(population, tb, PCrossover, PMutation, MaxGenerations, true, Some(stats), Some(hof));
    assert r.error != Some(MissingHallOfFame);
    assert r.logbook.header == ["gen", "nevals"] + StatsFields;
    StatsColumns();
    InitialEvaluations(draws);
    if Registered(stats) {
      LoggedColumns(Config(tb, PCrossover, PMutation, r.eliteCount), stats,
                    Pool(EvaluateInvalid(population, tb.evaluate), r.halls[0]),
                    Pool(r.population, r.hallOfFame.value), r.logbook.records, r.halls);
    }
    if Sized(tb, HallOfFameSize, PopulationSize) {
      assert |EvaluateInvalid(population, tb.evaluate)| == PopulationSize;
      assert r.eliteCount == HallOfFameSize;
      assert r.error.None?;
    }
    if r.error.None? {
      RunSnapshots(r.logbook.records, r.halls);
    }
  }
}
